=== FILE: README.md ===
# type-tester in Dafny

A model of `TypeTester`, a helper that turns a TypeScript program's type
errors into test suites. A fixture file announces the errors it expects in
comments such as `// @expected 2345`. `verify` declares several suites:

- one suite named `(misc)` for errors in the compiler options;
- one suite per fixture file, with a passing or failing case per expected
  error and a failing case per unexpected error;
- one suite per other non-library source file, with a failing case per
  error.

Suites are named by the file path relative to the common ancestor directory
of the fixtures.

The TypeScript compiler is replaced by data. A `SourceFile` arrives with:

- its three diagnostic lists;
- the comment tokens of its text, each already carrying its 0-based line;
- its two library flags.

A `Diagnostic` carries its start position already converted to a 0-based
line and character. The test runner (`describe`/`it`) is replaced by values:
`Suite(name, tests)` and `TestCase(name, passes)`.

Modules, in dependency order:

- `Wrappers`: `Option` and `Result`.
- `Decimal`: the decimal rendering of numbers used in template strings, and the `Number(...)` reading of a digit run.
- `Diagnostics`: diagnostics, the error-category filter, and the de-duplication that `new Set(...)` performs.
- `SetOps`: removing a set of diagnostics from a sequence, in order (`Set.prototype.delete`).
- `Scanner`: the `/@expected\s+(\d+)/u` match inside a comment, and the walk over scanned tokens (`collectExpectedErrors`).
- `Matcher`: the greedy matching loop of `verifyFixture`.
- `Expected`: the key string and the insertion-ordered `Map` of `verifyFixture`.
- `Reporter`: the case names and outcomes of `reportExpectedError` and `reportUnexpectedError`.
- `Ancestor`: `getCommonAncestor`, as written and corrected. `AncestorExamples` holds worked examples.
- `TypeTester`: `verify` as written and with the corrected ancestor, `verifyMisc`, `verifyFixture`, `verifySource`, file classification and display names.
- `Scenarios`: the situations of the repository's own tests, stated for all directories and names.

## Model

| member | source | states |
|---|---|---|
| Decimal.Show | src/index.ts:108 | the rendering is a non-empty digit string without a leading zero |
| Decimal.ValueOfShow | src/index.ts:108 | reading back the decimal rendering of a number gives the number |
| Decimal.ShowInjective | src/index.ts:108 | different numbers render differently |
| Decimal.DigitsSplit | src/index.ts:181 | a digit run followed by a non-digit is split the same way in two equal strings |
| Diagnostics.ErrorsOnly | src/index.ts:65-70 | keeps exactly the diagnostics of category Error, and no more elements than the input has |
| Diagnostics.ErrorsOnlyAppend | src/index.ts:69 | the filter keeps order and multiplicity: filtering a concatenation concatenates the filtered pieces |
| Diagnostics.ErrorsOnlyOne | src/index.ts:69 | a single diagnostic is kept exactly when it is an error |
| Diagnostics.Dedup | src/index.ts:65-70 | the `Set` keeps each diagnostic once and has the same members as its input; its insertion order is `SetOps.DedupAppend` |
| Diagnostics.Pool | src/index.ts:79-85 | the pool holds no duplicates, and a diagnostic is in it exactly when it is an error of the input; its order is `SetOps.PoolAppend` |
| Diagnostics.DedupOfDistinct | src/index.ts:65-70 | a list without duplicates passes through the `Set` unchanged |
| Diagnostics.ErrorsOnlyIgnoresOthers | src/index.ts:69 | adding non-error diagnostics before or after changes nothing |
| SetOps.Without | src/index.ts:102 | removal keeps exactly the members not removed |
| SetOps.WithoutConcat | src/index.ts:102 | removal distributes over concatenation |
| SetOps.WithoutTwice | src/index.ts:102 | removing two sets one after the other equals removing their union |
| SetOps.WithoutKeepsDistinct | src/index.ts:102 | removal keeps a duplicate-free sequence duplicate-free |
| SetOps.RemoveAtIsWithout | src/index.ts:102 | in a duplicate-free sequence, deleting the element at an index equals removing that value |
| SetOps.DedupAppend | src/index.ts:65-70 | the `Set` iterates in insertion order: the distinct members of the first part, then the new members of the second part |
| SetOps.PoolAppend | src/index.ts:79-85 | the pool lists the errors in order of first occurrence: those of the first part, then the new ones of the second part |
| SetOps.DedupKeepsFirst | src/index.ts:65-70 | a diagnostic that occurs again later keeps its first place: `[x, y, x]` gives `[x, y]` |
| Scanner.SpaceEnd | src/index.ts:154 | `\s+` extends to the first non-space character |
| Scanner.DigitEnd | src/index.ts:154 | `(\d+)` extends greedily to the first non-digit |
| Scanner.FirstMarker | src/index.ts:154 | finds the leftmost position where the pattern matches, and no earlier one |
| Scanner.ExpectedCode | src/index.ts:154-156 | defines the leftmost match's code, or nothing; its contract is stated by `Scanner.ExpectedCodeSpec` |
| Scanner.ExpectedCodeSpec | src/index.ts:154-156 | gives a code exactly when the pattern matches somewhere, and then the code of the leftmost match |
| Scanner.MarkerRoundTrip | src/index.ts:154-156 | a comment written as text, `@expected`, spaces, a number and a non-digit reads back as that number |
| Scanner.MarkerAfter | src/index.ts:154-156 | the pattern matches where the marker was written, with that code |
| Scanner.CollectExpected | src/index.ts:147-163 | at most one expectation per token; what they are is stated by `Scanner.CollectSound` and `Scanner.CollectComplete` |
| Scanner.CollectSound | src/index.ts:147-163 | every yielded expectation comes from a marked comment on its line |
| Scanner.CollectComplete | src/index.ts:147-163 | every comment before the end-of-file token whose text has a marker yields the expectation of its line and code |
| Scanner.CollectAppend | src/index.ts:148 | scanning is compositional: the expectations of a prefix come first |
| Scanner.StopsAtEnd | src/index.ts:148 | nothing after the end-of-file token is looked at |
| Scanner.NoMarkers | src/index.ts:155 | a file without marked comments yields no expectation |
| Matcher.FirstMatch | src/index.ts:91-105 | finds the first pool diagnostic with the code and start line, skipping those without a start |
| Matcher.MatchOne | src/index.ts:91-105 | the found diagnostic matches, and the found one plus the rest are the pool as a multiset |
| Matcher.MatchOneSpec | src/index.ts:91-105 | nothing is found exactly when nothing matches; otherwise the first match is removed and the rest keeps its order |
| Matcher.MatchAll | src/index.ts:89-111 | one outcome per expectation, in order; matched and leftover diagnostics partition the pool |
| Matcher.MatchedAreExact | src/index.ts:100 | a matched diagnostic has the expectation's code and line |
| Matcher.MissedHaveNoLeftover | src/index.ts:89-111 | an expectation that found nothing has no matching diagnostic left over |
| Matcher.FreshExpectationIsSatisfied | src/index.ts:89-111 | the first expectation with its line and code finds a diagnostic whenever the pool has a matching one |
| Matcher.MatchPartition | src/index.ts:89-111 | with a duplicate-free pool, every pool diagnostic is either matched or left over, and never both |
| Matcher.LeftoverInPoolOrder | src/index.ts:117-119 | the leftover is the pool minus the matched diagnostics, in pool order |
| Expected.Key | src/index.ts:107-110 | defines the key `TS<code> at L<line + 1>`; that it identifies the expectation is `Expected.KeyInjective` |
| Expected.KeyInjective | src/index.ts:107-110 | two expectations give the same key exactly when they are equal |
| Expected.Put | src/index.ts:107-110 | `Map.set` stores the value, leaves other keys alone, and appends a key only when it is new |
| Expected.PutNew | src/index.ts:107-110 | setting a new key appends an entry |
| Expected.FirstOccurrences | src/index.ts:88 | keeps each key once, with the same members |
| Expected.BuildEntries | src/index.ts:88-111 | the map's keys are the expectations' keys in first-insertion order |
| Expected.EntriesKeys | src/index.ts:88-111 | the keys are distinct, and an expectation has an entry exactly when it occurred |
| Expected.LastOneWins | src/index.ts:107-110 | a key holds the outcome of the last expectation with that key |
| Expected.DistinctEntries | src/index.ts:88-111 | with distinct expectations, there is one entry per expectation, in order |
| Reporter.ReportExpected | src/index.ts:166-173 | the case passes exactly when a diagnostic was found, and its name is `should have an error `, the key and a period |
| Reporter.ReportUnexpected | src/index.ts:175-193 | the case always fails, and its name starts with the prefix and the code |
| Reporter.LocationText | src/index.ts:176-182 | the position text is empty exactly when the diagnostic has no file or no start, and otherwise begins with ` at ` |
| Reporter.UnexpectedNameInjective | src/index.ts:175-182 | two unexpected-error names are equal exactly when the codes and shown positions are |
| Reporter.LocationTextInjective | src/index.ts:177-182 | the position text determines the one-based line and character, or their absence |
| Reporter.ReportEntries | src/index.ts:114-116 | one case per map entry, in map order, passing exactly when the entry holds a diagnostic |
| Reporter.ReportAll | src/index.ts:117-119 | one failing case per diagnostic, in order |
| Reporter.ReportAllMembers | src/index.ts:117-119 | the cases are exactly the unexpected-error cases of the diagnostics |
| Reporter.Failures | src/index.ts:184-192 | there are no failures exactly when every case passes |
| Reporter.FailuresAppend | src/index.ts:114-119 | the failures of consecutive cases add up |
| Reporter.ExpectedFailures | src/index.ts:114-116 | the entry cases fail once per entry without a diagnostic |
| Ancestor.WithTrailingSep | src/index.ts:232-234 | a separator is appended to a non-empty ancestor that lacks one; an empty ancestor, or one already ending in a separator, is unchanged |
| Ancestor.FirstMismatch | src/index.ts:221-225 | the first index where the ancestor and the path differ, or where the path runs out |
| Ancestor.LastSepBefore | src/index.ts:221-229 | `lastSep` is the last separator index passed, and 0 when there is none |
| Ancestor.Narrow | src/index.ts:221-229 | one narrowing gives a prefix of the ancestor that is either all of it, empty, or cut just before one of its separators |
| Ancestor.NarrowSpec | src/index.ts:221-229 | one narrowing gives a prefix of both strings, which is the old ancestor exactly when that is a character prefix of the path |
| Ancestor.NarrowToEmpty | src/index.ts:221-226 | a mismatch before any separator past index 0 leaves `lastSep` at 0, so the ancestor becomes empty |
| Ancestor.NarrowAll | src/index.ts:218-230 | the narrowed ancestor is a prefix of the start and of every further path |
| Ancestor.NarrowAllAppend | src/index.ts:218-230 | narrowing against two runs of paths is narrowing against the first, then the second |
| Ancestor.NarrowLoop | src/index.ts:221-229 | the inner loop computes one narrowing step |
| Ancestor.CommonAncestorOf | src/index.ts:215-236 | the ancestor as written is empty or ends in a separator, and prefixes the first directory completed with a separator |
| Ancestor.CommonAncestorEmpty | src/index.ts:221-234 | once a narrowing has emptied the ancestor, the result is the empty string |
| Ancestor.CommonAncestor | src/index.ts:215-236 | the loops compute the ancestor as written |
| Ancestor.CommonAncestorSpec | src/index.ts:215-236 | the result is empty or ends in a separator, prefixes the completed first directory, and, without its separator, prefixes every other path |
| Ancestor.CommonAncestorAlignedOf | src/index.ts:215-236 | the corrected ancestor is empty or ends in a separator, and is a prefix of every path |
| Ancestor.NarrowKeepsSharedDirs | src/index.ts:221-229 | a separator-terminated prefix of the ancestor that the path shares survives one narrowing, up to that separator |
| Ancestor.AlignedKeepsSharedDirs | src/index.ts:221-234 | one corrected narrowing keeps every directory below the root that both strings share |
| Ancestor.NarrowAllAlignedKeeps | src/index.ts:218-234 | repeated corrected narrowing keeps every directory below the root shared by the start and all paths |
| Ancestor.CommonAncestorAlignedLongest | src/index.ts:215-236 | the corrected ancestor is the longest common directory: every directory below the root shared by the first directory and all further paths is a prefix of it |
| AncestorExamples.SiblingsAndStrangers | src/index.ts:215-236 | two files in one directory share it; paths that split right after the root share nothing |
| AncestorExamples.MidComponentAncestor | src/index.ts:221-234 | as written, `/a/b` and `/a/bc/y.ts` give `/a/b/`, which is no prefix of the second path, so that path is shown as `/y.ts`; the corrected version gives `/a/` |
| TypeTester.VerifyMisc | src/index.ts:64-76 | every case fails, one per distinct error among the option and configuration-file diagnostics |
| TypeTester.VerifySource | src/index.ts:122-135 | every case fails, one per distinct error of the file |
| TypeTester.UnexpectedErrors | src/index.ts:64-76 | one failing case per distinct error, each the case of an error of the input; no case exactly when there is no error; every error is reported |
| TypeTester.VerifyFixture | src/index.ts:78-120 | defines the entry cases followed by the leftover cases; its outcome is stated by `TypeTester.FixtureFailures` and `TypeTester.FixturePasses` |
| TypeTester.FixtureFailures | src/index.ts:78-120 | a fixture fails once per unmet expectation key and once per leftover error |
| TypeTester.FixturePasses | src/index.ts:78-120 | a fixture passes exactly when every key found a diagnostic and no error was left over |
| TypeTester.CleanFixture | src/index.ts:78-120 | a fixture without errors or markers declares no case |
| TypeTester.UnmarkedFixture | src/index.ts:78-135 | a fixture without markers is checked exactly like a dependency source |
| TypeTester.FixtureAccountsForErrors | src/index.ts:89-119 | every error of a fixture either satisfies an expectation or is reported as unexpected |
| TypeTester.ExpectationMet | src/index.ts:89-115 | an expectation that is the only one with its line and code passes when a matching error exists |
| TypeTester.OnlyErrorsMatter | src/index.ts:79-85 | inserting non-error diagnostics anywhere among a file's diagnostics changes no fixture case and no source case |
| TypeTester.InsertNonErrors | src/index.ts:69 | non-errors inserted anywhere are dropped by the filter |
| TypeTester.NormalizeSlashes | src/index.ts:40 | backslashes become slashes; nothing else changes |
| TypeTester.NormalizeIdempotent | src/index.ts:40 | normalizing twice equals normalizing once |
| TypeTester.IsRootSpec | src/index.ts:39-41 | the per-path test agrees with membership in the set of normalized paths |
| TypeTester.Classify | src/index.ts:49-60 | defines the three roles; they are characterized by `TypeTester.ClassifySpec` |
| TypeTester.ClassifySpec | src/index.ts:49-60 | a file is a fixture exactly when it is a root, even inside a library; another file is skipped exactly when it belongs to a library |
| TypeTester.DisplayName | src/index.ts:48 | `slice` of the ancestor length, empty when the name is shorter |
| TypeTester.DisplayNameRelative | src/index.ts:48 | the ancestor followed by the display name gives back the file name |
| TypeTester.FileSuitesSpec | src/index.ts:47-61 | a suite exists exactly for each non-skipped file, under its display name and with its cases |
| TypeTester.Verify | src/index.ts:32-62 | fails exactly on an empty fixture list, and otherwise starts with the `(misc)` suite; names use the ancestor as written |
| TypeTester.VerifyCorrected | src/index.ts:32-62 | the same run with the corrected common ancestor |
| TypeTester.FixtureNamesRelative | src/index.ts:36-48 | with the corrected ancestor, every fixture's display name is its path relative to that ancestor |
| Scenarios.FailingAppend | test/index.ts:19-28 | the failures of consecutive suites add up |
| Scenarios.FailingInCount | test/index.ts:19-28 | a suite records one failure per failing case, under its own name |
| Scenarios.CleanRun | test/index.ts:34-53 | a passing fixture beside a library file gives no failure |
| Scenarios.UnannouncedError | test/index.ts:55-84 | one unannounced error gives exactly one failure, in the fixture's suite |
| Scenarios.UnexpectedFixtureName | test/index.ts:75-83 | an error TS2345 at line 98, column 17 is named `should not have an error TS2345 at 98:17` |
| Scenarios.ErrorInSource | test/index.ts:86-115 | an error in an imported source file gives exactly one failure, in that file's suite |
| Scenarios.UnexpectedSourceName | test/index.ts:106-114 | an error TS7006 at 396:5 is named `should not have an error TS7006 at 396:5` |
| Scenarios.MissingExpectation | test/index.ts:117-146 | a marker with no error gives exactly one failure: the case for its key |
| Scenarios.MissingExpectationName | test/index.ts:137-145 | that case for TS2345 on the 13th line is named `should have an error TS2345 at L13.` |
| Scenarios.OptionError | test/index.ts:189-211 | an option error gives exactly one `(misc)` failure; every other failure belongs to the fixture's suite |
| Scenarios.SiblingFixtures | test/index.ts:213-231 | as written, fixtures in sibling directories `a` and `b`, where `a` is not a character prefix of `b`, have the parent as ancestor and are shown as `<dir>/<file>` |
| Scenarios.SiblingPrefixAncestor | src/index.ts:221-234 | as written, when `a` is a proper prefix of the sibling `b`, the ancestor stays inside `a`, is no prefix of the second fixture, and cuts its name |

## Left out

- Creating the program (`createProgram`) and computing diagnostics are replaced by data on each `SourceFile` and on the `Program`.
- `getLineAndCharacterOfPosition` is replaced by positions already converted to 0-based lines and characters.
- `createScanner` is replaced by the list of scanned tokens, each with its kind, text and start line.
- `flattenDiagnosticMessageText` and the assertion message of a failing case are not modelled. A case is reduced to its name and whether it passes.
- `path.resolve`, `path.dirname` and `path.sep` are not modelled as functions. Fixture paths are taken as already resolved. `dirname` is a function parameter and `sep` is a character parameter.
- The constructor, the `Options` interface and the `fallback` function are not modelled. They only choose how `describe` and `it` run, and the model represents suites and cases as values.
- `Set` membership by object identity is modelled as equality of values that carry an `id` field.
- Decimal.Show: renders every number in plain decimal digits. A template literal renders numbers from 10^21 up in exponent form (`1e+21`), and that form is not modelled.
- Expected.Key: through `Decimal.Show`, a code of 10^21 or more gives a key with the full digit string. The source's key for such a code uses exponent form (`TS1e+21 at L1`).
- Scanner.ExpectedCodeSpec: `Number(...)` is modelled as an exact natural number. The double-precision rounding of codes above 2^53 is not modelled.
- TypeTester.Verify: the run on an empty fixture list is modelled as a `Failure`. The source throws in `path.dirname(undefined)` there.
- TypeTester.FixtureNamesRelative: stated for `TypeTester.VerifyCorrected`'s ancestor only. As written the property fails when one fixture directory's name is a character prefix of another's (see Findings and `Scenarios.SiblingPrefixAncestor`).
- TypeTester.DisplayName: lengths and slices count Unicode scalar values, while `.length` and `slice` count UTF-16 code units. The two agree when the ancestor is a prefix of the file name and differ otherwise, for example for a dependency source outside the ancestor that contains a character beyond the Basic Multilingual Plane.
- Ancestor.CommonAncestorAlignedLongest: maximality is stated only for directories that name at least one component (`IsDirPrefix`), not for a bare separator such as the root `/`.
- TypeTester.VerifyFixture: carries no contract of its own; its outcome is stated by `TypeTester.FixtureFailures`, `TypeTester.FixturePasses` and the lemmas after them.
- Scenarios.SiblingFixtures: states the ancestor and the display names of the two-fixture test, not the full run with its two failures and their order (test/index.ts:233-251), which depends on the order the compiler lists the source files in.
- scripts/to-mjs.ts is a build script and is not part of this model.

Where the prose description and the code differ, the model follows the code. `TypeTester.Verify` names suites with the common ancestor as written; `TypeTester.VerifyCorrected` is the same run with the corrected ancestor (see Findings). An unexpected-error case name has no trailing period (src/index.ts:176-184). An expected-error name ends in a period (src/index.ts:170).

## Findings

| source | as written | input that shows it | evidently intended | confidence | as-written member | corrected member |
|---|---|---|---|---|---|---|
| src/index.ts:221-234 | the ancestor is kept whenever it is a character prefix of the next path, even when the path continues inside the same component | first directory `/a/b`, other path `/a/bc/y.ts`: the ancestor stays `/a/b/`, and slicing off its five characters shows the second file as `/y.ts` | the ancestor is a directory that contains every fixture (`/a/`), so each name is a path below it | not executed | AncestorExamples.MidComponentAncestor | Ancestor.CommonAncestorAlignedOf |

=== FILE: ancestor.dfy ===
/** The common-ancestor prefix of the resolved fixture paths, whose length is
    stripped from every file name to form a report group's display name.

    It is a pure prefix computation on characters: the directory of the first
    path is narrowed against each further path in turn, cutting it back to the
    last separator seen before the first differing character. `path.dirname`
    and `path.sep` are parameters (`firstDir`, `sep`). */
module Ancestor {

  /** `a` with a separator appended, unless it is empty or already ends in one. */
  function WithTrailingSep(a: string, sep: char): (r: string)
    ensures r == "" || r[|r| - 1] == sep
    ensures a <= r && |r| <= |a| + 1
    ensures a == "" || a[|a| - 1] == sep ==> r == a
  {
    if a != "" && a[|a| - 1] != sep then a + [sep] else a
  }

  /** The first index `k >= j` at which `a[k]` differs from `f[k]`, an index
      past the end of `f` counting as a difference; `|a|` when there is none. */
  function FirstMismatch(a: string, f: string, j: nat): (k: nat)
    requires j <= |a|
    ensures j <= k <= |a|
    ensures k == j || k <= |f|
    ensures forall i :: j <= i < k ==> a[i] == f[i]
    ensures k < |a| ==> k >= |f| || a[k] != f[k]
    decreases |a| - j
  {
    if j == |a| then j
    else if j < |f| && a[j] == f[j] then FirstMismatch(a, f, j + 1)
    else j
  }

  /** The value of `lastSep` once the inner loop has passed indices `0..j-1`:
      the last of them holding a separator, and 0 when none does. */
  function LastSepBefore(a: string, j: nat, sep: char): (r: nat)
    requires j <= |a|
    ensures r == 0 || (r < j && a[r] == sep)
    ensures forall i :: r < i < j ==> a[i] != sep
  {
    if j == 0 then 0
    else if a[j - 1] == sep then j - 1
    else LastSepBefore(a, j - 1, sep)
  }

  /** The last separator before `j` is at `p` when `p` holds one and none
      follows it before `j`. */
  lemma {:induction false} LastSepAt(a: string, p: nat, j: nat, sep: char)
    requires p < j <= |a| && a[p] == sep
    requires forall i :: p < i < j ==> a[i] != sep
    ensures LastSepBefore(a, j, sep) == p
    decreases j
  {
    if j - 1 != p {
      LastSepAt(a, p, j - 1, sep);
    }
  }

  /** One pass of the inner loop: the ancestor `a` narrowed against the
      path `f`. */
  function Narrow(a: string, f: string, sep: char): (r: string)
    ensures r <= a
    ensures r == a || r == "" || a[|r|] == sep
  {
    var j := FirstMismatch(a, f, 0);
    if j == |a| then a else a[..LastSepBefore(a, j, sep)]
  }

  /** What one narrowing step guarantees: the result is a prefix of both
      strings; it is `a` itself exactly when `a` is a character prefix of
      `f` (even if `f` continues in the middle of a path component); and
      otherwise it is empty or stops just before a separator of `a` that
      `f` shares. */
  lemma NarrowSpec(a: string, f: string, sep: char)
    ensures Narrow(a, f, sep) <= a && Narrow(a, f, sep) <= f
    ensures Narrow(a, f, sep) == a <==> a <= f
    ensures var r := Narrow(a, f, sep);
      r != a ==> r == "" || (a[|r|] == sep && a[..|r| + 1] <= f)
  {
    var j := FirstMismatch(a, f, 0);
    if j < |a| {
      var k := LastSepBefore(a, j, sep);
      assert a[..k] <= f;
    } else if |a| > 0 {
      assert |a| - 1 < |f|;
      assert forall i :: 0 <= i < |a| ==> a[i] == f[i];
      assert a == f[..|a|];
    }
  }

  /** A mismatch before any separator at index 1 or later leaves `lastSep`
      at 0, so the ancestor becomes empty. */
  lemma NarrowToEmpty(a: string, f: string, sep: char)
    requires !(a <= f)
    requires forall i :: 0 < i < FirstMismatch(a, f, 0) ==> a[i] != sep
    ensures Narrow(a, f, sep) == ""
  {
    NarrowSpec(a, f, sep);
    var j := FirstMismatch(a, f, 0);
    var k := LastSepBefore(a, j, sep);
    assert k == 0;
  }

  /** Once a narrowing has emptied the ancestor, the result is empty: the
      inner loop never runs on an empty ancestor, and no separator is
      appended to it. */
  lemma CommonAncestorEmpty(firstDir: string, files: seq<string>, sep: char, i: nat)
    requires 1 <= i <= |files|
    requires NarrowAll(firstDir, files[1..i], sep) == ""
    ensures CommonAncestorOf(firstDir, files, sep) == ""
  {
    assert files[1..] == files[1..i] + files[i..];
    NarrowAllAppend(firstDir, files[1..i], files[i..], sep);
  }

  /** Narrowing against two runs of paths is narrowing against the first,
      then against the second. */
  lemma {:induction false} NarrowAllAppend(a: string, fs: seq<string>, gs: seq<string>, sep: char)
    ensures NarrowAll(a, fs + gs, sep) == NarrowAll(NarrowAll(a, fs, sep), gs, sep)
    decreases |gs|
  {
    if |gs| == 0 {
      assert fs + gs == fs;
    } else {
      var init := gs[..|gs| - 1];
      assert (fs + gs)[..|fs + gs| - 1] == fs + init;
      assert (fs + gs)[|fs + gs| - 1] == gs[|gs| - 1];
      NarrowAllAppend(a, fs, init, sep);
    }
  }

  /** The ancestor after narrowing `a` against every path of `fs` in order. */
  function NarrowAll(a: string, fs: seq<string>, sep: char): (r: string)
    ensures r <= a
    ensures forall i :: 0 <= i < |fs| ==> r <= fs[i]
    ensures r == a || r == "" || a[|r|] == sep
  {
    if |fs| == 0 then a
    else
      var b := NarrowAll(a, fs[..|fs| - 1], sep);
      NarrowSpec(b, fs[|fs| - 1], sep);
      Narrow(b, fs[|fs| - 1], sep)
  }

  /** `getCommonAncestor` as written, on `files` whose first element has
      directory `firstDir`. */
  function CommonAncestorOf(firstDir: string, files: seq<string>, sep: char): (r: string)
    requires |files| >= 1
    ensures r == "" || r[|r| - 1] == sep
    ensures r <= WithTrailingSep(firstDir, sep)
  {
    WithTrailingSep(NarrowAll(firstDir, files[1..], sep), sep)
  }

  /** `getCommonAncestor` as written: the loop over the further paths,
      computing the recursive definition above. */
  method CommonAncestor(firstDir: string, files: seq<string>, sep: char) returns (r: string)
    requires |files| >= 1
    ensures r == CommonAncestorOf(firstDir, files, sep)
  {
    var ancestor := firstDir;
    var i := 1;
    while i < |files|
      invariant 1 <= i <= |files|
      invariant ancestor == NarrowAll(firstDir, files[1..i], sep)
    {
      ancestor := NarrowLoop(ancestor, files[i], sep);
      assert files[1..i + 1] == files[1..i] + [files[i]];
      i := i + 1;
    }
    assert files[1..i] == files[1..];
    if ancestor != "" && ancestor[|ancestor| - 1] != sep {
      ancestor := ancestor + [sep];
    }
    r := ancestor;
  }

  /** The observable guarantees of the common ancestor as written: it is
      empty or ends in the separator; it is a prefix of the first directory
      with a separator appended; without its final separator it is a
      character prefix of every further path; and with one path it is just
      that path's directory with a trailing separator. */
  lemma CommonAncestorSpec(firstDir: string, files: seq<string>, sep: char)
    requires |files| >= 1
    ensures var r := CommonAncestorOf(firstDir, files, sep);
      (r == "" || r[|r| - 1] == sep) && r <= firstDir + [sep]
    ensures var r := CommonAncestorOf(firstDir, files, sep);
      forall i :: 1 <= i < |files| ==> r == "" || r[..|r| - 1] <= files[i]
    ensures |files| == 1 ==> CommonAncestorOf(firstDir, files, sep) == WithTrailingSep(firstDir, sep)
  {
    var inner := NarrowAll(firstDir, files[1..], sep);
    var r := CommonAncestorOf(firstDir, files, sep);
    assert r == inner || r == inner + [sep];
    forall k | 1 <= k < |files| && r != ""
      ensures r[..|r| - 1] <= files[k]
    {
      assert files[k] == files[1..][k - 1];
      assert r[..|r| - 1] <= inner;
    }
  }

  /** The inner loop of `getCommonAncestor`: walk the ancestor while it
      agrees with `filePath`, remembering the last separator seen, and cut
      at that separator on the first disagreement. */
  method NarrowLoop(a: string, filePath: string, sep: char) returns (ancestor: string)
    ensures ancestor == Narrow(a, filePath, sep)
  {
    ancestor := a;
    var j := 0;
    var lastSep := 0;
    while j < |a|
      invariant j <= |a|
      invariant ancestor == a
      invariant lastSep == LastSepBefore(a, j, sep)
      invariant FirstMismatch(a, filePath, j) == FirstMismatch(a, filePath, 0)
    {
      if j >= |filePath| || a[j] != filePath[j] {
        ancestor := a[..lastSep];
        break;
      }
      if a[j] == sep {
        lastSep := j;
      }
      j := j + 1;
    }
  }

  /** The narrowing step with the ancestor first completed to a directory
      (a trailing separator), so that the separator itself must match too. */
  function NarrowAligned(a: string, f: string, sep: char): string {
    Narrow(WithTrailingSep(a, sep), f, sep)
  }

  /** Repeated aligned narrowing: the completed result is a prefix of the
      completed start and of every path. */
  function NarrowAllAligned(a: string, fs: seq<string>, sep: char): (r: string)
    ensures WithTrailingSep(r, sep) <= WithTrailingSep(a, sep)
    ensures forall i :: 0 <= i < |fs| ==> WithTrailingSep(r, sep) <= fs[i]
  {
    if |fs| == 0 then a
    else
      var b := NarrowAllAligned(a, fs[..|fs| - 1], sep);
      var f := fs[|fs| - 1];
      var r := NarrowAligned(b, f, sep);
      AlignedStep(b, f, sep);
      PrefixOfAll(WithTrailingSep(r, sep), WithTrailingSep(b, sep), WithTrailingSep(a, sep), fs, fs[..|fs| - 1]);
      r
  }

  /** A prefix of a common prefix of all but the last path, that is also a
      prefix of the last, is a common prefix of all of them. */
  lemma PrefixOfAll(r: string, b: string, a: string, fs: seq<string>, init: seq<string>)
    requires |fs| > 0 && init == fs[..|fs| - 1]
    requires r <= b && b <= a
    requires forall i :: 0 <= i < |init| ==> b <= init[i]
    requires r <= fs[|fs| - 1]
    ensures r <= a
    ensures forall i :: 0 <= i < |fs| ==> r <= fs[i]
  {
    forall i | 0 <= i < |fs| - 1
      ensures r <= fs[i]
    {
      assert b <= init[i];
    }
  }

  /** One aligned step keeps the completed ancestor a prefix of the previous
      completed ancestor, and makes it a prefix of the new path. */
  lemma AlignedStep(b: string, f: string, sep: char)
    ensures var r := WithTrailingSep(NarrowAligned(b, f, sep), sep);
      r <= WithTrailingSep(b, sep) && r <= f
  {
    var d := WithTrailingSep(b, sep);
    NarrowSpec(d, f, sep);
    var r := Narrow(d, f, sep);
    if r != d && r != "" && r[|r| - 1] != sep {
      assert WithTrailingSep(r, sep) == d[..|r| + 1];
    }
  }

  /** A directory prefix of `a` that `f` shares survives narrowing: the
      result keeps at least everything before that separator. */
  lemma NarrowKeepsSharedDirs(a: string, f: string, sep: char, p: nat)
    requires p < |a| && a[p] == sep && a[..p + 1] <= f
    ensures p <= |Narrow(a, f, sep)|
  {
    var j := FirstMismatch(a, f, 0);
    if j < |a| {
      assert p < |f| && forall i :: 0 <= i <= p ==> a[i] == f[i];
      var k := LastSepBefore(a, j, sep);
      assert p <= k;
    }
  }

  /** A directory path of at least one component below the root, ending in
      its separator. */
  predicate IsDirPrefix(q: string, sep: char) {
    |q| >= 2 && q[|q| - 1] == sep && q[|q| - 2] != sep
  }

  /** One aligned narrowing keeps every directory both strings share. */
  lemma AlignedKeepsSharedDirs(q: string, b: string, f: string, sep: char)
    requires IsDirPrefix(q, sep)
    requires q <= WithTrailingSep(b, sep) && q <= f
    ensures q <= WithTrailingSep(NarrowAligned(b, f, sep), sep)
  {
    var d := WithTrailingSep(b, sep);
    var p := |q| - 1;
    assert d[..p + 1] == q;
    NarrowKeepsSharedDirs(d, f, sep, p);
    var r := Narrow(d, f, sep);
    assert q[..p] <= r by {
      assert r <= d;
      assert forall i :: 0 <= i < p ==> r[i] == d[i] == q[i];
    }
    if |r| == p {
      assert r == q[..p];
      assert r[|r| - 1] == q[|q| - 2];
      assert WithTrailingSep(r, sep) == q;
    } else {
      assert r[p] == d[p] == sep;
      assert q == r[..p + 1];
    }
  }

  /** Repeated aligned narrowing keeps every directory shared by the start
      and all paths. */
  lemma {:induction false} NarrowAllAlignedKeeps(q: string, a: string, fs: seq<string>, sep: char)
    requires IsDirPrefix(q, sep)
    requires q <= WithTrailingSep(a, sep)
    requires forall i :: 0 <= i < |fs| ==> q <= fs[i]
    ensures q <= WithTrailingSep(NarrowAllAligned(a, fs, sep), sep)
    decreases |fs|
  {
    if |fs| > 0 {
      var init := fs[..|fs| - 1];
      assert forall i :: 0 <= i < |init| ==> init[i] == fs[i];
      NarrowAllAlignedKeeps(q, a, init, sep);
      AlignedKeepsSharedDirs(q, NarrowAllAligned(a, init, sep), fs[|fs| - 1], sep);
    }
  }

  /** The corrected ancestor is the longest common directory: every
      directory below the root that the completed first directory and all
      further paths share is a prefix of it. */
  lemma CommonAncestorAlignedLongest(firstDir: string, files: seq<string>, sep: char, q: string)
    requires |files| >= 1
    requires IsDirPrefix(q, sep)
    requires q <= WithTrailingSep(firstDir, sep)
    requires forall i :: 1 <= i < |files| ==> q <= files[i]
    ensures q <= CommonAncestorAlignedOf(firstDir, files, sep)
  {
    assert forall i :: 0 <= i < |files[1..]| ==> files[1..][i] == files[i + 1];
    NarrowAllAlignedKeeps(q, firstDir, files[1..], sep);
  }

  /** The common ancestor as evidently intended: a separator-terminated
      prefix of every path, never ending inside a path component. */
  function CommonAncestorAlignedOf(firstDir: string, files: seq<string>, sep: char): (r: string)
    requires |files| >= 1
    ensures r == "" || r[|r| - 1] == sep
    ensures r <= WithTrailingSep(firstDir, sep)
    ensures forall i :: 1 <= i < |files| ==> r <= files[i]
    ensures WithTrailingSep(firstDir, sep) <= files[0] ==>
      forall i :: 0 <= i < |files| ==> r <= files[i]
  {
    var a := NarrowAllAligned(firstDir, files[1..], sep);
    assert forall i :: 1 <= i < |files| ==> files[i] == files[1..][i - 1];
    WithTrailingSep(a, sep)
  }
}

/** Worked examples of the common-ancestor computation. */
module AncestorExamples {
  import opened Ancestor
  import opened TypeTester

  /** Two paths in one directory share it; paths that differ right after the
      root share nothing, because `lastSep` is still 0 there. */
  lemma SiblingsAndStrangers()
    ensures CommonAncestorOf("/a/b", ["/a/b/c.ts", "/a/b/d.ts"], '/') == "/a/b/"
    ensures CommonAncestorOf("/a/b", ["/a/b/c.ts", "/x/y/d.ts"], '/') == ""
  {
    assert FirstMismatch("/a/b", "/x/y/d.ts", 0) == 1;
    NarrowToEmpty("/a/b", "/x/y/d.ts", '/');
  }

  /** As written, a directory that is a character prefix of the next path
      survives even when that path continues inside the component: the
      ancestor "/a/b/" is not a prefix of "/a/bc/y.ts", and slicing off its
      five characters shows that file as "/y.ts". The aligned version yields
      "/a/". */
  lemma MidComponentAncestor()
    ensures CommonAncestorOf("/a/b", ["/a/b/x.ts", "/a/bc/y.ts"], '/') == "/a/b/"
    ensures !("/a/b/" <= "/a/bc/y.ts")
    ensures CommonAncestorAlignedOf("/a/b", ["/a/b/x.ts", "/a/bc/y.ts"], '/') == "/a/"
    ensures DisplayName("/a/bc/y.ts", |CommonAncestorOf("/a/b", ["/a/b/x.ts", "/a/bc/y.ts"], '/')|) == "/y.ts"
  {
    NarrowSpec("/a/b", "/a/bc/y.ts", '/');
    assert "/a/b" <= "/a/bc/y.ts";
    assert ("/a/bc/y.ts")[4] == 'c';
    assert FirstMismatch("/a/b/", "/a/bc/y.ts", 0) == 4;
    assert LastSepBefore("/a/b/", 4, '/') == 2;
  }
}

=== FILE: decimal.dfy ===
/** Decimal digit strings: the value `Number(digits)` gives a run of ASCII
    digits, and the text a template literal `${n}` renders for a
    non-negative integer below 10^21 (from 10^21 up JavaScript switches to
    exponent form, which is not modelled). */
module Decimal {

  predicate IsDigit(c: char) {
    '0' <= c <= '9'
  }

  predicate AllDigits(s: string) {
    forall i :: 0 <= i < |s| ==> IsDigit(s[i])
  }

  function DigitValue(c: char): (v: nat)
    requires IsDigit(c)
    ensures v < 10
  {
    c as int - '0' as int
  }

  function DigitChar(v: nat): (c: char)
    requires v < 10
    ensures IsDigit(c) && DigitValue(c) == v
  {
    ('0' as int + v) as char
  }

  /** The number a run of decimal digits denotes, most significant first
      (leading zeros are harmless, as with `Number("007")`). */
  function Value(s: string): nat
    requires AllDigits(s)
  {
    if |s| == 0 then 0 else 10 * Value(s[..|s| - 1]) + DigitValue(s[|s| - 1])
  }

  /** The shortest decimal rendering of `n`. */
  function Show(n: nat): (s: string)
    ensures |s| > 0 && AllDigits(s)
    ensures |s| > 1 ==> s[0] != '0'
  {
    if n < 10 then [DigitChar(n)] else Show(n / 10) + [DigitChar(n % 10)]
  }

  /** Reading back a rendered number gives the number. */
  lemma {:induction false} ValueOfShow(n: nat)
    ensures Value(Show(n)) == n
  {
    if n >= 10 {
      var s := Show(n);
      assert s[..|s| - 1] == Show(n / 10);
      ValueOfShow(n / 10);
    }
  }

  lemma ShowInjective(a: nat, b: nat)
    ensures Show(a) == Show(b) <==> a == b
  {
    if Show(a) == Show(b) {
      ValueOfShow(a);
      ValueOfShow(b);
    }
  }

  /** A digit run followed by the end of the text or by a non-digit is
      determined by the text: two such splittings of one string agree. */
  lemma DigitsSplit(d1: string, s1: string, d2: string, s2: string)
    requires AllDigits(d1) && AllDigits(d2)
    requires s1 == [] || !IsDigit(s1[0])
    requires s2 == [] || !IsDigit(s2[0])
    requires d1 + s1 == d2 + s2
    ensures d1 == d2 && s1 == s2
  {
    var t := d1 + s1;
    assert |d1| < |t| ==> !IsDigit(t[|d1|]);
    assert |d2| < |t| ==> !IsDigit(t[|d2|]);
    assert d1 == t[..|d1|] == d2;
    assert s1 == t[|d1|..] == s2;
  }
}

=== FILE: diagnostics.dfy ===
/** Diagnostics as the compiler hands them over, and the "pool" each
    verification mode builds from them: the error-category diagnostics of
    the given phases, collected into a `Set` (insertion order, one entry per
    object). */
module Diagnostics {
  import opened Wrappers

  datatype Category = Warning | Error | Suggestion | Message

  /** A zero-based line and character, already resolved from the start
      offset through the owning file. */
  datatype Position = Position(line: nat, character: nat)

  /** `id` stands for object identity: two diagnostics are the same `Set`
      member exactly when they are the same object, which the model renders
      as equal values with equal `id`s. `hasFile` records whether
      `diagnostic.file` is set. */
  datatype Diagnostic = Diagnostic(
    id: nat,
    code: nat,
    category: Category,
    start: Option<Position>,
    hasFile: bool)

  predicate NoDuplicates<T(==)>(s: seq<T>) {
    forall i, j :: 0 <= i < j < |s| ==> s[i] != s[j]
  }

  /** The `.filter(d => d.category === Error)` step, keeping order. */
  function ErrorsOnly(ds: seq<Diagnostic>): (r: seq<Diagnostic>)
    ensures forall d :: d in r <==> d in ds && d.category == Error
    ensures |r| <= |ds|
  {
    if |ds| == 0 then []
    else
      var rest := ErrorsOnly(ds[..|ds| - 1]);
      var d := ds[|ds| - 1];
      if d.category == Error then rest + [d] else rest
  }

  /** The filter keeps order and multiplicity: the part kept from a
      concatenation is the parts kept from each piece, in turn. */
  lemma {:induction false} ErrorsOnlyAppend(a: seq<Diagnostic>, b: seq<Diagnostic>)
    ensures ErrorsOnly(a + b) == ErrorsOnly(a) + ErrorsOnly(b)
    decreases |b|
  {
    if |b| == 0 {
      assert a + b == a;
    } else {
      var init := b[..|b| - 1];
      assert (a + b)[..|a + b| - 1] == a + init;
      assert (a + b)[|a + b| - 1] == b[|b| - 1];
      ErrorsOnlyAppend(a, init);
    }
  }

  /** On a single diagnostic the filter keeps an error and drops anything
      else. */
  lemma ErrorsOnlyOne(d: Diagnostic)
    ensures ErrorsOnly([d]) == if d.category == Error then [d] else []
  {
    assert [d][..0] == [];
  }

  /** `new Set(ds)` iterated in insertion order: the first occurrence of
      each diagnostic, in order. */
  function Dedup(ds: seq<Diagnostic>): (r: seq<Diagnostic>)
    ensures NoDuplicates(r)
    ensures forall d :: d in r <==> d in ds
    ensures |r| <= |ds|
  {
    if |ds| == 0 then []
    else
      var rest := Dedup(ds[..|ds| - 1]);
      var d := ds[|ds| - 1];
      if d in rest then rest else rest + [d]
  }

  /** The diagnostic pool of one verification: the distinct error
      diagnostics among `ds`. */
  function Pool(ds: seq<Diagnostic>): (r: seq<Diagnostic>)
    ensures NoDuplicates(r)
    ensures forall d :: d in r <==> d in ds && d.category == Error
  {
    Dedup(ErrorsOnly(ds))
  }

  /** Deduplication keeps first occurrences in order: a duplicate-free input
      passes through unchanged. */
  lemma {:induction false} DedupOfDistinct(ds: seq<Diagnostic>)
    requires NoDuplicates(ds)
    ensures Dedup(ds) == ds
  {
    if |ds| > 0 {
      var init := ds[..|ds| - 1];
      assert NoDuplicates(init);
      DedupOfDistinct(init);
      assert ds[|ds| - 1] !in init;
      assert init + [ds[|ds| - 1]] == ds;
    }
  }

  /** Only the error-category diagnostics matter: diagnostics of any other
      category can be added anywhere without changing the pool. */
  lemma {:induction false} ErrorsOnlyIgnoresOthers(ds: seq<Diagnostic>, extra: seq<Diagnostic>)
    requires forall d :: d in extra ==> d.category != Error
    ensures ErrorsOnly(ds + extra) == ErrorsOnly(ds)
    ensures ErrorsOnly(extra + ds) == ErrorsOnly(ds)
    ensures ErrorsOnly(extra) == []
  {
    if |extra| > 0 {
      var init := extra[..|extra| - 1];
      ErrorsOnlyIgnoresOthers(ds, init);
      assert (ds + extra)[..|ds + extra| - 1] == ds + init;
    } else {
      assert ds + extra == ds == extra + ds;
    }
    if |ds| > 0 {
      var init := ds[..|ds| - 1];
      ErrorsOnlyIgnoresOthers(init, extra);
      assert (extra + ds)[..|extra + ds| - 1] == extra + init;
    } else {
      assert extra + ds == extra;
    }
  }
}

=== FILE: expected.dfy ===
/** The insertion-ordered map `expectedDiagnostics` of `verifyFixture`: one
    entry per distinct key "TS<code> at L<line + 1>", kept at the position of
    its first insertion and holding the value of its last one (the
    semantics of `Map.prototype.set`). */
module Expected {
  import opened Wrappers
  import opened Decimal
  import opened Diagnostics
  import opened Scanner
  import opened Matcher

  /** The map key of an expectation; the line is shown one-based. */
  function Key(e: Expectation): string {
    "TS" + (Show(e.code) + (" at L" + Show(e.line + 1)))
  }

  /** Two expectations share a key exactly when they are the same
      (line, code) pair. */
  lemma KeyInjective(a: Expectation, b: Expectation)
    ensures Key(a) == Key(b) <==> a == b
  {
    if Key(a) == Key(b) {
      var ta, tb := Show(a.code) + (" at L" + Show(a.line + 1)), Show(b.code) + (" at L" + Show(b.line + 1));
      assert ta == tb by {
        assert Key(a)[2..] == ta;
        assert Key(b)[2..] == tb;
      }
      CodeAndLine(a.code, a.line + 1, b.code, b.line + 1);
    }
  }

  /** The text after "TS" determines both numbers: the code's digits end at
      the space. */
  lemma CodeAndLine(c1: nat, l1: nat, c2: nat, l2: nat)
    requires Show(c1) + (" at L" + Show(l1)) == Show(c2) + (" at L" + Show(l2))
    ensures c1 == c2 && l1 == l2
  {
    var s1, s2 := " at L" + Show(l1), " at L" + Show(l2);
    DigitsSplit(Show(c1), s1, Show(c2), s2);
    assert s1[5..] == Show(l1) && s2[5..] == Show(l2);
    ShowInjective(c1, c2);
    ShowInjective(l1, l2);
  }

  /** A map entry: the key and the diagnostic found for it, `None` for
      `null`. */
  datatype Entry = Entry(key: string, found: Option<Diagnostic>)

  /** The keys of the map in iteration order. */
  function Keys(m: seq<Entry>): (r: seq<string>)
    ensures |r| == |m|
    ensures forall i :: 0 <= i < |m| ==> r[i] == m[i].key
  {
    if |m| == 0 then [] else [m[0].key] + Keys(m[1..])
  }

  /** `Map.prototype.get` together with `has`: `None` when the key is absent,
      `Some(v)` for the first entry with that key otherwise. */
  function Lookup(m: seq<Entry>, key: string): Option<Option<Diagnostic>> {
    if |m| == 0 then None
    else if m[0].key == key then Some(m[0].found)
    else Lookup(m[1..], key)
  }

  /** `Map.prototype.set`: afterwards the key maps to `v` and every other key
      to what it mapped to before; a present key keeps its position and a new
      key goes to the end. */
  function Put(m: seq<Entry>, key: string, v: Option<Diagnostic>): (r: seq<Entry>)
    ensures Lookup(r, key) == Some(v)
    ensures forall k :: k != key ==> Lookup(r, k) == Lookup(m, k)
    ensures Keys(r) == if key in Keys(m) then Keys(m) else Keys(m) + [key]
  {
    if |m| == 0 then [Entry(key, v)]
    else if m[0].key == key then
      var r := [Entry(key, v)] + m[1..];
      assert r[1..] == m[1..];
      r
    else
      var r := [m[0]] + Put(m[1..], key, v);
      assert r[1..] == Put(m[1..], key, v);
      r
  }

  /** Setting a key that is not yet present appends one entry. */
  lemma {:induction false} PutNew(m: seq<Entry>, key: string, v: Option<Diagnostic>)
    requires key !in Keys(m)
    ensures Put(m, key, v) == m + [Entry(key, v)]
  {
    if |m| > 0 {
      var tail := m[1..];
      assert m[0].key != key by {
        assert Keys(m)[0] == m[0].key;
      }
      assert key !in Keys(tail) by {
        assert Keys(tail) == Keys(m)[1..];
      }
      PutNew(tail, key, v);
      calc {
        Put(m, key, v);
        [m[0]] + Put(tail, key, v);
        [m[0]] + (tail + [Entry(key, v)]);
        ([m[0]] + tail) + [Entry(key, v)];
        { assert [m[0]] + tail == m; }
        m + [Entry(key, v)];
      }
    }
  }

  /** The key of each outcome's expectation, in scan order. */
  function OutcomeKeys(outcomes: seq<Outcome>): (r: seq<string>)
    ensures |r| == |outcomes|
    ensures forall i :: 0 <= i < |outcomes| ==> r[i] == Key(outcomes[i].expectation)
  {
    seq(|outcomes|, i requires 0 <= i < |outcomes| => Key(outcomes[i].expectation))
  }

  /** The first occurrence of each string, in order of first occurrence: the
      iteration order of a `Map` whose keys were set in this order. */
  function FirstOccurrences(s: seq<string>): (r: seq<string>)
    ensures NoDuplicates(r)
    ensures forall k :: k in r <==> k in s
  {
    if |s| == 0 then []
    else
      var rest := FirstOccurrences(s[..|s| - 1]);
      assert forall k :: k in s <==> k in s[..|s| - 1] || k == s[|s| - 1];
      if s[|s| - 1] in rest then rest else rest + [s[|s| - 1]]
  }

  /** The map after the expectation loop of `verifyFixture`: each outcome set in scan
      order. */
  function BuildEntries(outcomes: seq<Outcome>): (r: seq<Entry>)
    ensures Keys(r) == FirstOccurrences(OutcomeKeys(outcomes))
  {
    if |outcomes| == 0 then []
    else
      var init := outcomes[..|outcomes| - 1];
      var last := outcomes[|outcomes| - 1];
      assert OutcomeKeys(outcomes)[..|outcomes| - 1] == OutcomeKeys(init);
      Put(BuildEntries(init), Key(last.expectation), last.found)
  }

  /** The keys of the map are exactly the keys of the expectations, each
      once. */
  lemma EntriesKeys(outcomes: seq<Outcome>)
    ensures NoDuplicates(Keys(BuildEntries(outcomes)))
    ensures forall e :: e in Expectations(outcomes) <==> Key(e) in Keys(BuildEntries(outcomes))
  {
    ExpectationsAt(outcomes);
    forall e
      ensures e in Expectations(outcomes) <==> Key(e) in OutcomeKeys(outcomes)
    {
      if Key(e) in OutcomeKeys(outcomes) {
        var i :| 0 <= i < |outcomes| && OutcomeKeys(outcomes)[i] == Key(e);
        KeyInjective(e, outcomes[i].expectation);
        assert Expectations(outcomes)[i] == e;
      }
    }
  }

  /** The value reported for a key is the one recorded by the LAST
      expectation with that key: a repeated (line, code) pair overwrites the
      earlier result. */
  lemma {:induction false} LastOneWins(outcomes: seq<Outcome>, j: nat)
    requires j < |outcomes|
    requires forall k :: j < k < |outcomes| ==>
      outcomes[k].expectation != outcomes[j].expectation
    ensures Lookup(BuildEntries(outcomes), Key(outcomes[j].expectation)) == Some(outcomes[j].found)
  {
    var init := outcomes[..|outcomes| - 1];
    var last := outcomes[|outcomes| - 1];
    if j < |outcomes| - 1 {
      KeyInjective(last.expectation, outcomes[j].expectation);
      assert init[j] == outcomes[j];
      LastOneWins(init, j);
    }
  }

  /** An expectation different from all the outcomes' has a key none of them
      has. */
  lemma FreshKey(outcomes: seq<Outcome>, e: Expectation)
    requires forall i :: 0 <= i < |outcomes| ==> outcomes[i].expectation != e
    ensures Key(e) !in OutcomeKeys(outcomes)
  {
    forall i | 0 <= i < |outcomes|
      ensures OutcomeKeys(outcomes)[i] != Key(e)
    {
      KeyInjective(outcomes[i].expectation, e);
    }
  }

  /** An expectation that differs from every earlier one brings a key the
      map does not have yet, so it is appended. */
  lemma AppendFresh(outcomes: seq<Outcome>)
    requires |outcomes| > 0
    requires forall i :: 0 <= i < |outcomes| - 1 ==>
      outcomes[i].expectation != outcomes[|outcomes| - 1].expectation
    ensures var last := outcomes[|outcomes| - 1];
      BuildEntries(outcomes) ==
        BuildEntries(outcomes[..|outcomes| - 1]) + [Entry(Key(last.expectation), last.found)]
  {
    var init := outcomes[..|outcomes| - 1];
    var last := outcomes[|outcomes| - 1];
    assert Key(last.expectation) !in Keys(BuildEntries(init)) by {
      assert forall i :: 0 <= i < |init| ==> init[i].expectation != last.expectation;
      FreshKey(init, last.expectation);
    }
    PutNew(BuildEntries(init), Key(last.expectation), last.found);
  }

  /** When no (line, code) pair repeats, the map holds one entry per
      expectation, in scan order, with the result of that expectation. */
  lemma {:induction false} DistinctEntries(outcomes: seq<Outcome>)
    requires forall i, j :: 0 <= i < j < |outcomes| ==>
      outcomes[i].expectation != outcomes[j].expectation
    ensures |BuildEntries(outcomes)| == |outcomes|
    ensures forall i :: 0 <= i < |outcomes| ==>
      BuildEntries(outcomes)[i] == Entry(Key(outcomes[i].expectation), outcomes[i].found)
  {
    if |outcomes| > 0 {
      var init := outcomes[..|outcomes| - 1];
      var last := outcomes[|outcomes| - 1];
      var built := BuildEntries(init);
      var all := BuildEntries(outcomes);
      assert |built| == |init| &&
        forall i :: 0 <= i < |init| ==> built[i] == Entry(Key(init[i].expectation), init[i].found)
      by {
        DistinctEntries(init);
      }
      assert all == built + [Entry(Key(last.expectation), last.found)] by {
        AppendFresh(outcomes);
      }
      EntriesSnoc(all, built, init, outcomes);
    }
  }

  /** Pointwise entries for all but the last outcome, followed by the
      last outcome's entry, are pointwise entries for every outcome. */
  lemma EntriesSnoc(all: seq<Entry>, built: seq<Entry>, init: seq<Outcome>, outcomes: seq<Outcome>)
    requires |outcomes| > 0 && init == outcomes[..|outcomes| - 1] && |built| == |init|
    requires forall i :: 0 <= i < |init| ==>
      built[i] == Entry(Key(init[i].expectation), init[i].found)
    requires var last := outcomes[|outcomes| - 1];
      all == built + [Entry(Key(last.expectation), last.found)]
    ensures |all| == |outcomes|
    ensures forall i :: 0 <= i < |outcomes| ==>
      all[i] == Entry(Key(outcomes[i].expectation), outcomes[i].found)
  {
    assert forall i :: 0 <= i < |init| ==> init[i] == outcomes[i];
  }
}

=== FILE: matcher.dfy ===
/** The matcher of `verifyFixture`: each expectation, in scan order, takes
    the first diagnostic still in the pool that has a start position, the
    same code and the same zero-based line; whatever remains afterwards is
    unexpected. */
module Matcher {
  import opened Wrappers
  import opened Diagnostics
  import opened Scanner
  import opened SetOps

  /** The test of the inner loop: `d.start != null`, `d.code === code` and
      `dLine === line`. */
  predicate Matches(d: Diagnostic, e: Expectation) {
    d.start.Some? && d.code == e.code && d.start.value.line == e.line
  }

  /** The index of the first diagnostic at or after `i` matching `e`. */
  function FirstMatch(pool: seq<Diagnostic>, e: Expectation, i: nat): (r: Option<nat>)
    requires i <= |pool|
    ensures r.Some? ==> i <= r.value < |pool| && Matches(pool[r.value], e)
    ensures r.Some? ==> forall k :: i <= k < r.value ==> !Matches(pool[k], e)
    ensures r.None? ==> forall k :: i <= k < |pool| ==> !Matches(pool[k], e)
    decreases |pool| - i
  {
    if i == |pool| then None
    else if Matches(pool[i], e) then Some(i)
    else FirstMatch(pool, e, i + 1)
  }

  /** One expectation's search: the diagnostic found, if any, and the pool
      left after `diagnostics.delete(d)`. */
  datatype Step = Step(found: Option<Diagnostic>, rest: seq<Diagnostic>)

  /** The optional diagnostic as a sequence of zero or one elements. */
  function AsSeq(o: Option<Diagnostic>): seq<Diagnostic> {
    if o.Some? then [o.value] else []
  }

  /** The search for one expectation: whatever it takes matches, and it
      takes nothing but what it finds (pool = found + rest, as multisets). */
  function MatchOne(pool: seq<Diagnostic>, e: Expectation): (r: Step)
    ensures r.found.Some? ==> Matches(r.found.value, e)
    ensures multiset(AsSeq(r.found)) + multiset(r.rest) == multiset(pool)
  {
    match FirstMatch(pool, e, 0)
    case Some(i) =>
      assert pool == pool[..i] + [pool[i]] + pool[i + 1..];
      Step(Some(pool[i]), pool[..i] + pool[i + 1..])
    case None => Step(None, pool)
  }

  /** The search finds nothing exactly when no diagnostic in the pool
      matches; otherwise it takes the first match in pool order and the rest
      of the pool keeps its order. */
  lemma MatchOneSpec(pool: seq<Diagnostic>, e: Expectation)
    ensures var r := MatchOne(pool, e);
      r.found.None? <==> forall d :: d in pool ==> !Matches(d, e)
    ensures var r := MatchOne(pool, e);
      r.found.None? ==> r.rest == pool
    ensures var r := MatchOne(pool, e);
      r.found.Some? ==>
        exists i :: 0 <= i < |pool| && pool[i] == r.found.value &&
          (forall k :: 0 <= k < i ==> !Matches(pool[k], e)) &&
          r.rest == pool[..i] + pool[i + 1..]
  {
  }

  /** An expectation together with the diagnostic recorded for it, or
      `None` for the `null` of "not found". */
  datatype Outcome = Outcome(expectation: Expectation, found: Option<Diagnostic>)

  datatype MatchResult = MatchResult(outcomes: seq<Outcome>, leftover: seq<Diagnostic>)

  /** The diagnostics consumed by matched expectations, in scan order. */
  function Found(outcomes: seq<Outcome>): seq<Diagnostic> {
    if |outcomes| == 0 then [] else AsSeq(outcomes[0].found) + Found(outcomes[1..])
  }

  /** The expectations the outcomes are recorded for, in order. */
  function Expectations(outcomes: seq<Outcome>): seq<Expectation> {
    if |outcomes| == 0 then [] else [outcomes[0].expectation] + Expectations(outcomes[1..])
  }

  lemma {:induction false} ExpectationsAt(outcomes: seq<Outcome>)
    ensures |Expectations(outcomes)| == |outcomes|
    ensures forall i :: 0 <= i < |outcomes| ==>
      Expectations(outcomes)[i] == outcomes[i].expectation
  {
    if |outcomes| > 0 {
      ExpectationsAt(outcomes[1..]);
    }
  }

  /** The whole matching loop, threading the remaining pool through the
      expectations: one outcome per expectation, in scan order, and the
      matched and leftover diagnostics together are exactly the pool (as a
      multiset: nothing lost, duplicated or invented). */
  function MatchAll(pool: seq<Diagnostic>, exps: seq<Expectation>): (r: MatchResult)
    ensures Expectations(r.outcomes) == exps
    ensures multiset(Found(r.outcomes)) + multiset(r.leftover) == multiset(pool)
    decreases |exps|
  {
    if |exps| == 0 then MatchResult([], pool)
    else
      var step := MatchOne(pool, exps[0]);
      var tail := MatchAll(step.rest, exps[1..]);
      var outcomes := [Outcome(exps[0], step.found)] + tail.outcomes;
      assert outcomes[1..] == tail.outcomes;
      assert Found(outcomes) == AsSeq(step.found) + Found(tail.outcomes);
      MultisetStep(pool, AsSeq(step.found), step.rest, Found(tail.outcomes), tail.leftover);
      MatchResult(outcomes, tail.leftover)
  }

  lemma MultisetStep(pool: seq<Diagnostic>, head: seq<Diagnostic>, rest: seq<Diagnostic>,
                     found: seq<Diagnostic>, leftover: seq<Diagnostic>)
    requires multiset(head) + multiset(rest) == multiset(pool)
    requires multiset(found) + multiset(leftover) == multiset(rest)
    ensures multiset(head + found) + multiset(leftover) == multiset(pool)
  {
    calc {
      multiset(head + found) + multiset(leftover);
      multiset(head) + multiset(found) + multiset(leftover);
      multiset(head) + (multiset(found) + multiset(leftover));
      multiset(pool);
    }
  }

  /** The first step of the loop, spelled out. */
  lemma MatchAllCons(pool: seq<Diagnostic>, exps: seq<Expectation>)
    requires |exps| > 0
    ensures var step := MatchOne(pool, exps[0]);
      var tail := MatchAll(step.rest, exps[1..]);
      MatchAll(pool, exps) ==
        MatchResult([Outcome(exps[0], step.found)] + tail.outcomes, tail.leftover)
  {
  }

  /** One outcome per expectation, recorded for that expectation. */
  lemma OutcomesAlign(pool: seq<Diagnostic>, exps: seq<Expectation>)
    ensures var r := MatchAll(pool, exps);
      |r.outcomes| == |exps| &&
      forall i :: 0 <= i < |exps| ==> r.outcomes[i].expectation == exps[i]
  {
    ExpectationsAt(MatchAll(pool, exps).outcomes);
  }

  lemma InMultiset(d: Diagnostic, a: seq<Diagnostic>, b: seq<Diagnostic>, c: seq<Diagnostic>)
    requires multiset(a) + multiset(b) == multiset(c)
    ensures d in b ==> d in c
    ensures d in a ==> d in c
  {
    assert d in b ==> d in multiset(b);
    assert d in a ==> d in multiset(a);
    assert d in multiset(c) ==> d in c;
  }

  /** Matching is exact: a recorded diagnostic has a start position, the
      expectation's code and the expectation's line. */
  lemma {:induction false} MatchedAreExact(pool: seq<Diagnostic>, exps: seq<Expectation>)
    ensures forall o :: o in MatchAll(pool, exps).outcomes && o.found.Some? ==>
      Matches(o.found.value, o.expectation)
    decreases |exps|
  {
    if |exps| > 0 {
      MatchAllCons(pool, exps);
      MatchedAreExact(MatchOne(pool, exps[0]).rest, exps[1..]);
    }
  }

  /** Greediness loses nothing a later look would find: an expectation left
      without a diagnostic has no matching diagnostic among the leftovers. */
  lemma {:induction false} MissedHaveNoLeftover(pool: seq<Diagnostic>, exps: seq<Expectation>)
    ensures var r := MatchAll(pool, exps);
      forall o :: o in r.outcomes && o.found.None? ==>
        forall d :: d in r.leftover ==> !Matches(d, o.expectation)
    decreases |exps|
  {
    if |exps| > 0 {
      var step := MatchOne(pool, exps[0]);
      var tail := MatchAll(step.rest, exps[1..]);
      MatchAllCons(pool, exps);
      MissedHaveNoLeftover(step.rest, exps[1..]);
      if step.found.None? {
        forall d | d in tail.leftover
          ensures !Matches(d, exps[0])
        {
          InMultiset(d, Found(tail.outcomes), tail.leftover, step.rest);
          assert step.rest == pool;
          assert FirstMatch(pool, exps[0], 0).None?;
        }
      }
    }
  }

  /** An expectation whose (line, code) pair did not occur earlier in scan
      order is satisfied whenever the pool holds a diagnostic matching it:
      earlier expectations only consume diagnostics that match them, and a
      diagnostic matches a single (line, code) pair. */
  lemma {:induction false} FreshExpectationIsSatisfied(
    pool: seq<Diagnostic>, exps: seq<Expectation>, i: nat, d: Diagnostic)
    requires i < |exps|
    requires exps[i] !in exps[..i]
    requires d in pool && Matches(d, exps[i])
    ensures |MatchAll(pool, exps).outcomes| == |exps|
    ensures MatchAll(pool, exps).outcomes[i].found.Some?
  {
    var r := MatchAll(pool, exps);
    var step := MatchOne(pool, exps[0]);
    var tail := MatchAll(step.rest, exps[1..]);
    assert r == MatchResult([Outcome(exps[0], step.found)] + tail.outcomes, tail.leftover) by {
      MatchAllCons(pool, exps);
    }
    assert |r.outcomes| == |exps| by {
      OutcomesAlign(pool, exps);
    }
    if i == 0 {
      assert step.found.Some? by {
        MatchOneSpec(pool, exps[0]);
      }
    } else {
      FreshSurvives(pool, exps, i, d);
      FreshExpectationIsSatisfied(step.rest, exps[1..], i - 1, d);
      assert r.outcomes[i] == tail.outcomes[i - 1];
    }
  }

  /** The first search cannot take a diagnostic meant for a later, fresh
      expectation, so the rest of the loop still faces it. */
  lemma FreshSurvives(pool: seq<Diagnostic>, exps: seq<Expectation>, i: nat, d: Diagnostic)
    requires 0 < i < |exps|
    requires exps[i] !in exps[..i]
    requires d in pool && Matches(d, exps[i])
    ensures d in MatchOne(pool, exps[0]).rest
    ensures var rest := exps[1..];
      rest[i - 1] == exps[i] && exps[i] !in rest[..i - 1]
  {
    var step := MatchOne(pool, exps[0]);
    assert exps[0] in exps[..i];
    assert step.found != Some(d);
    InMultiset(d, AsSeq(step.found), step.rest, pool);
    assert exps[1..][..i - 1] == exps[1..i];
  }

  /** With a duplicate-free pool, matching is a partition: no diagnostic is
      matched twice, none is both matched and left over, and every pool
      member is one or the other. */
  lemma MatchPartition(pool: seq<Diagnostic>, exps: seq<Expectation>)
    requires NoDuplicates(pool)
    ensures var r := MatchAll(pool, exps);
      NoDuplicates(Found(r.outcomes) + r.leftover)
    ensures var r := MatchAll(pool, exps);
      forall d :: d in pool <==> d in Found(r.outcomes) || d in r.leftover
  {
    var r := MatchAll(pool, exps);
    var all := Found(r.outcomes) + r.leftover;
    assert multiset(all) == multiset(pool);
    DistinctByMultiset(all, pool);
    forall d
      ensures d in pool <==> d in all
    {
      assert d in pool <==> d in multiset(pool);
      assert d in all <==> d in multiset(all);
    }
  }

  /** The unexpected diagnostics are the pool minus the matched ones, in
      the pool's own order (the iteration order of the `Set`). */
  lemma {:induction false} LeftoverInPoolOrder(pool: seq<Diagnostic>, exps: seq<Expectation>)
    requires NoDuplicates(pool)
    ensures var r := MatchAll(pool, exps);
      r.leftover == Without(pool, SetOf(Found(r.outcomes)))
    decreases |exps|
  {
    var r := MatchAll(pool, exps);
    if |exps| == 0 {
      assert SetOf(Found(r.outcomes)) == {};
      WithoutNothing(pool, {});
    } else {
      var step := MatchOne(pool, exps[0]);
      var tail := MatchAll(step.rest, exps[1..]);
      var head := SetOf(AsSeq(step.found));
      var later := SetOf(Found(tail.outcomes));
      assert r == MatchResult([Outcome(exps[0], step.found)] + tail.outcomes, tail.leftover) by {
        MatchAllCons(pool, exps);
      }
      assert SetOf(Found(r.outcomes)) == head + later by {
        assert r.outcomes[1..] == tail.outcomes;
        assert Found(r.outcomes) == AsSeq(step.found) + Found(tail.outcomes);
      }
      assert step.rest == Without(pool, head) by {
        RestIsWithout(pool, exps[0]);
      }
      assert NoDuplicates(step.rest) by {
        WithoutKeepsDistinct(pool, head);
      }
      assert tail.leftover == Without(step.rest, later) by {
        LeftoverInPoolOrder(step.rest, exps[1..]);
      }
      WithoutTwice(pool, head, later);
    }
  }

  /** What one search leaves is the pool without the diagnostic it found. */
  lemma RestIsWithout(pool: seq<Diagnostic>, e: Expectation)
    requires NoDuplicates(pool)
    ensures var step := MatchOne(pool, e);
      step.rest == Without(pool, SetOf(AsSeq(step.found)))
  {
    match FirstMatch(pool, e, 0)
    case Some(i) =>
      assert MatchOne(pool, e) == Step(Some(pool[i]), pool[..i] + pool[i + 1..]);
      assert AsSeq(Some(pool[i])) == [pool[i]];
      assert SetOf([pool[i]]) == {pool[i]};
      RemoveAtIsWithout(pool, i);
    case None =>
      assert MatchOne(pool, e) == Step(None, pool);
      assert SetOf([]) == {};
      WithoutNothing(pool, {});
  }
}

=== FILE: reporter.dfy ===
/** The test cases `verifyFixture`, `verifySource` and `verifyMisc` declare:
    a name and whether its body passes. The assertion message of a failing
    unexpected-error case is left out. */
module Reporter {
  import opened Wrappers
  import opened Decimal
  import opened Diagnostics
  import opened Expected

  /** One `it(...)` call: the name it is declared with and whether its body
      runs without a failed assertion. */
  datatype TestCase = TestCase(name: string, passes: bool)

  const ExpectedPrefix := "should have an error "
  const UnexpectedPrefix := "should not have an error TS"

  /** Where a diagnostic is shown: its position when it has both a file and
      a start, nothing otherwise. */
  function Location(d: Diagnostic): Option<Position> {
    if d.hasFile && d.start.Some? then Some(d.start.value) else None
  }

  /** The position part of an unexpected-error name, one-based
      " at <line>:<character>", or empty. */
  function LocationText(d: Diagnostic): (r: string)
    ensures r == "" <==> Location(d).None?
    ensures Location(d).Some? ==> " at " <= r
  {
    match Location(d)
    case Some(p) => " at " + (Show(p.line + 1) + (":" + Show(p.character + 1)))
    case None => ""
  }

  /** `reportExpectedError`: the case passes exactly when a diagnostic was
      found for the key, and its name carries the key. */
  function ReportExpected(key: string, found: Option<Diagnostic>): (t: TestCase)
    ensures t.passes <==> found.Some?
    ensures |t.name| == |ExpectedPrefix| + |key| + 1 && t.name[|ExpectedPrefix|..|t.name| - 1] == key
    ensures ExpectedPrefix <= t.name && t.name[|t.name| - 1] == '.'
  {
    TestCase(ExpectedPrefix + key + ".", found.Some?)
  }

  /** `reportUnexpectedError`: the case always fails, and its name starts
      with the code. */
  function ReportUnexpected(d: Diagnostic): (t: TestCase)
    ensures !t.passes
    ensures UnexpectedPrefix + Show(d.code) <= t.name
  {
    TestCase(UnexpectedPrefix + (Show(d.code) + LocationText(d)), false)
  }

  /** The name of an unexpected-error case determines the code and the shown
      location: two diagnostics with the same code and position, or the
      same code and no position, are indistinguishable, and no others are. */
  lemma UnexpectedNameInjective(a: Diagnostic, b: Diagnostic)
    ensures ReportUnexpected(a).name == ReportUnexpected(b).name <==>
      a.code == b.code && Location(a) == Location(b)
  {
    var na, nb := ReportUnexpected(a).name, ReportUnexpected(b).name;
    if na == nb {
      var ta, tb := LocationText(a), LocationText(b);
      assert Show(a.code) + ta == Show(b.code) + tb by {
        assert na[|UnexpectedPrefix|..] == Show(a.code) + ta;
        assert nb[|UnexpectedPrefix|..] == Show(b.code) + tb;
      }
      assert Show(a.code) == Show(b.code) && ta == tb by {
        DigitsSplit(Show(a.code), ta, Show(b.code), tb);
      }
      ShowInjective(a.code, b.code);
      LocationTextInjective(a, b);
    }
  }

  /** Equal location texts come from equal locations. */
  lemma LocationTextInjective(a: Diagnostic, b: Diagnostic)
    requires LocationText(a) == LocationText(b)
    ensures Location(a) == Location(b)
  {
    if Location(a).Some? && Location(b).Some? {
      var pa, pb := Location(a).value, Location(b).value;
      assert LocationText(a)[4..] == LocationText(b)[4..];
      PositionTextInjective(pa.line + 1, pa.character + 1, pb.line + 1, pb.character + 1);
    } else if Location(a).Some? || Location(b).Some? {
      assert |LocationText(a)| + |LocationText(b)| > 0;
    }
  }

  /** "<line>:<character>" determines both numbers. */
  lemma PositionTextInjective(l1: nat, c1: nat, l2: nat, c2: nat)
    requires Show(l1) + (":" + Show(c1)) == Show(l2) + (":" + Show(c2))
    ensures l1 == l2 && c1 == c2
  {
    var s1, s2 := ":" + Show(c1), ":" + Show(c2);
    DigitsSplit(Show(l1), s1, Show(l2), s2);
    assert s1[1..] == Show(c1) && s2[1..] == Show(c2);
    ShowInjective(l1, l2);
    ShowInjective(c1, c2);
  }

  /** The entry cases of `verifyFixture`, one per map entry, in map order. */
  function ReportEntries(entries: seq<Entry>): (r: seq<TestCase>)
    ensures |r| == |entries|
    ensures forall i :: 0 <= i < |entries| ==>
      r[i].passes == entries[i].found.Some? &&
      r[i] == ReportExpected(entries[i].key, entries[i].found)
  {
    if |entries| == 0 then []
    else [ReportExpected(entries[0].key, entries[0].found)] + ReportEntries(entries[1..])
  }

  /** The report loops of `verifyFixture`, `verifyMisc` and `verifySource`, one per diagnostic,
      each failing. */
  function ReportAll(ds: seq<Diagnostic>): (r: seq<TestCase>)
    ensures |r| == |ds|
    ensures forall i :: 0 <= i < |ds| ==> r[i] == ReportUnexpected(ds[i])
  {
    if |ds| == 0 then [] else [ReportUnexpected(ds[0])] + ReportAll(ds[1..])
  }

  /** The cases of `ReportAll` are exactly the unexpected-error cases of
      the given diagnostics. */
  lemma ReportAllMembers(ds: seq<Diagnostic>)
    ensures forall d :: d in ds ==> ReportUnexpected(d) in ReportAll(ds)
    ensures forall t :: t in ReportAll(ds) ==> exists d :: d in ds && t == ReportUnexpected(d)
  {
    forall d | d in ds
      ensures ReportUnexpected(d) in ReportAll(ds)
    {
      var i :| 0 <= i < |ds| && ds[i] == d;
      assert ReportAll(ds)[i] == ReportUnexpected(d);
    }
    forall t | t in ReportAll(ds)
      ensures exists d :: d in ds && t == ReportUnexpected(d)
    {
      var i :| 0 <= i < |ds| && ReportAll(ds)[i] == t;
      assert ds[i] in ds;
    }
  }

  /** The number of cases that fail. */
  function Failures(tests: seq<TestCase>): (n: nat)
    ensures n <= |tests|
    ensures n == 0 <==> forall i :: 0 <= i < |tests| ==> tests[i].passes
  {
    if |tests| == 0 then 0
    else (if tests[0].passes then 0 else 1) + Failures(tests[1..])
  }

  lemma {:induction false} FailuresAppend(a: seq<TestCase>, b: seq<TestCase>)
    ensures Failures(a + b) == Failures(a) + Failures(b)
  {
    if |a| > 0 {
      assert (a + b)[1..] == a[1..] + b;
      FailuresAppend(a[1..], b);
    } else {
      assert a + b == b;
    }
  }

  /** Every unexpected diagnostic is one failing case. */
  lemma {:induction false} UnexpectedAllFail(ds: seq<Diagnostic>)
    ensures Failures(ReportAll(ds)) == |ds|
  {
    if |ds| > 0 {
      assert ReportAll(ds)[1..] == ReportAll(ds[1..]);
      UnexpectedAllFail(ds[1..]);
    }
  }

  /** The entries without a diagnostic, in map order. */
  function Missing(entries: seq<Entry>): (r: seq<Entry>)
    ensures forall e :: e in r <==> e in entries && e.found.None?
  {
    if |entries| == 0 then []
    else (if entries[0].found.None? then [entries[0]] else []) + Missing(entries[1..])
  }

  /** An expected-error case fails for each entry left without a
      diagnostic, and for nothing else. */
  lemma {:induction false} ExpectedFailures(entries: seq<Entry>)
    ensures Failures(ReportEntries(entries)) == |Missing(entries)|
  {
    if |entries| > 0 {
      assert ReportEntries(entries)[1..] == ReportEntries(entries[1..]);
      ExpectedFailures(entries[1..]);
    }
  }
}

=== FILE: scanner.dfy ===
/** Expectation markers: comment tokens whose text contains `@expected`,
    whitespace, and a decimal code. The compiler's scanner is replaced by the
    token stream it would yield, each token carrying its kind, its text and
    the zero-based line of its start. */
module Scanner {
  import opened Wrappers
  import opened Decimal

  const Marker: string := "@expected"

  /** `\s` of a JavaScript regular expression in Unicode mode. */
  predicate IsRegexSpace(c: char) {
    var n := c as int;
    || n == 0x09 || n == 0x0A || n == 0x0B || n == 0x0C || n == 0x0D
    || n == 0x20 || n == 0xA0 || n == 0x1680 || (0x2000 <= n <= 0x200A)
    || n == 0x2028 || n == 0x2029 || n == 0x202F || n == 0x205F
    || n == 0x3000 || n == 0xFEFF
  }

  /** The end of the maximal run of regex whitespace starting at `k`. */
  function SpaceEnd(s: string, k: nat): (e: nat)
    requires k <= |s|
    ensures k <= e <= |s|
    ensures forall i :: k <= i < e ==> IsRegexSpace(s[i])
    ensures e < |s| ==> !IsRegexSpace(s[e])
    decreases |s| - k
  {
    if k < |s| && IsRegexSpace(s[k]) then SpaceEnd(s, k + 1) else k
  }

  /** The end of the maximal run of decimal digits starting at `k`. */
  function DigitEnd(s: string, k: nat): (e: nat)
    requires k <= |s|
    ensures k <= e <= |s|
    ensures forall i :: k <= i < e ==> IsDigit(s[i])
    ensures AllDigits(s[k..e])
    ensures e < |s| ==> !IsDigit(s[e])
    decreases |s| - k
  {
    if k < |s| && IsDigit(s[k]) then
      var e := DigitEnd(s, k + 1);
      assert s[k..e] == [s[k]] + s[k + 1..e];
      e
    else k
  }

  /** The pattern `@expected\s+(\d+)` matches at index `i`: the greedy
      whitespace run is non-empty and a digit follows it (giving back
      whitespace never helps, since a digit is not whitespace). */
  predicate MarkerAt(s: string, i: nat) {
    && i + |Marker| <= |s|
    && s[i..i + |Marker|] == Marker
    && var w := SpaceEnd(s, i + |Marker|);
       w > i + |Marker| && DigitEnd(s, w) > w
  }

  /** `Number(m[1])` for the match at `i`: the value of the greedy digit run. */
  function CodeAt(s: string, i: nat): nat
    requires MarkerAt(s, i)
  {
    var w := SpaceEnd(s, i + |Marker|);
    Value(s[w..DigitEnd(s, w)])
  }

  /** The leftmost match at index `i` or later. */
  function FirstMarker(s: string, i: nat): (r: Option<nat>)
    requires i <= |s|
    ensures r.Some? ==> i <= r.value < |s| && MarkerAt(s, r.value)
    ensures r.Some? ==> forall k :: i <= k < r.value ==> !MarkerAt(s, k)
    ensures r.None? ==> forall k :: i <= k < |s| ==> !MarkerAt(s, k)
    decreases |s| - i
  {
    if i == |s| then None
    else if MarkerAt(s, i) then Some(i)
    else FirstMarker(s, i + 1)
  }

  /** `/@expected\s+(\d+)/u.exec(comment)` and `Number(m[1])`: a code exactly
      when the pattern matches somewhere, and then the code of the leftmost
      match; later markers in the same comment are ignored. */
  function ExpectedCode(comment: string): Option<nat> {
    match FirstMarker(comment, 0)
    case Some(i) => Some(CodeAt(comment, i))
    case None => None
  }

  lemma ExpectedCodeSpec(comment: string)
    ensures var r := ExpectedCode(comment);
      r.Some? <==> exists i :: 0 <= i < |comment| && MarkerAt(comment, i)
    ensures var r := ExpectedCode(comment);
      r.Some? ==>
        exists i :: 0 <= i < |comment| && MarkerAt(comment, i) &&
          r.value == CodeAt(comment, i) &&
          forall k :: 0 <= k < i ==> !MarkerAt(comment, k)
  {
  }

  lemma SpaceEndIs(s: string, k: nat, e: nat)
    requires k <= e <= |s|
    requires forall i :: k <= i < e ==> IsRegexSpace(s[i])
    requires e < |s| ==> !IsRegexSpace(s[e])
    ensures SpaceEnd(s, k) == e
  {
    var e' := SpaceEnd(s, k);
  }

  lemma DigitEndIs(s: string, k: nat, e: nat)
    requires k <= e <= |s|
    requires forall i :: k <= i < e ==> IsDigit(s[i])
    requires e < |s| ==> !IsDigit(s[e])
    ensures DigitEnd(s, k) == e
  {
    var e' := DigitEnd(s, k);
  }

  /** A marker written as `@expected`, whitespace and a rendered code, with
      no `@` before it and no digit after it, is read back as that code. */
  lemma MarkerRoundTrip(pre: string, ws: string, n: nat, post: string)
    requires '@' !in pre
    requires |ws| > 0 && forall i :: 0 <= i < |ws| ==> IsRegexSpace(ws[i])
    requires post == [] || !IsDigit(post[0])
    ensures ExpectedCode(pre + Marker + ws + Show(n) + post) == Some(n)
  {
    var s := pre + Marker + ws + Show(n) + post;
    MarkerAfter(pre, ws, n, post);
    NoMarkerIn(pre, s);
    assert FirstMarker(s, 0) == Some(|pre|);
  }

  /** No match can start inside a prefix that holds no `@`. */
  lemma NoMarkerIn(pre: string, s: string)
    requires '@' !in pre && pre <= s
    ensures forall k :: 0 <= k < |pre| ==> !MarkerAt(s, k)
  {
    forall k | 0 <= k < |pre|
      ensures !MarkerAt(s, k)
    {
      assert s[k] == pre[k];
      assert k + |Marker| <= |s| ==> s[k..k + |Marker|][0] == s[k];
    }
  }

  lemma MarkerAfter(pre: string, ws: string, n: nat, post: string)
    requires |ws| > 0 && forall i :: 0 <= i < |ws| ==> IsRegexSpace(ws[i])
    requires post == [] || !IsDigit(post[0])
    ensures var s := pre + Marker + ws + Show(n) + post;
      MarkerAt(s, |pre|) && CodeAt(s, |pre|) == n
  {
    var digits := Show(n);
    var s := pre + Marker + ws + digits + post;
    var m := |pre|;
    var v := m + |Marker|;
    var w := v + |ws|;
    var e := w + |digits|;
    assert s[m..v] == Marker;
    assert s[v..w] == ws;
    assert s[w..e] == digits;
    assert s[e..] == post;
    assert forall i :: v <= i < w ==> s[i] == ws[i - v];
    assert forall i :: w <= i < e ==> s[i] == digits[i - w];
    SpaceEndIs(s, v, w);
    DigitEndIs(s, w, e);
    ValueOfShow(n);
  }

  datatype TokenKind =
    | SingleLineCommentTrivia
    | MultiLineCommentTrivia
    | EndOfFileToken
    | OtherToken

  /** A scanned token: its kind, `getTokenText()`, and the zero-based line
      of `getTokenPos()`. */
  datatype Token = Token(kind: TokenKind, text: string, line: nat)

  /** An `@expected` marker: the zero-based line of its comment and the code. */
  datatype Expectation = Expectation(line: nat, code: nat)

  predicate IsComment(t: Token) {
    t.kind == SingleLineCommentTrivia || t.kind == MultiLineCommentTrivia
  }

  /** The expectation, if any, that a single token contributes. */
  function TokenExpectation(t: Token): Option<Expectation> {
    if IsComment(t) then
      match ExpectedCode(t.text)
      case Some(c) => Some(Expectation(t.line, c))
      case None => None
    else None
  }

  /** `collectExpectedErrors`: scan until the end-of-file token and yield
      one expectation per marked comment, in scan order. */
  function CollectExpected(tokens: seq<Token>): (r: seq<Expectation>)
    ensures |r| <= |tokens|
  {
    if |tokens| == 0 || tokens[0].kind == EndOfFileToken then []
    else
      var rest := CollectExpected(tokens[1..]);
      match TokenExpectation(tokens[0])
      case Some(e) => [e] + rest
      case None => rest
  }

  /** Without a marked comment there is nothing to expect. */
  lemma NoMarkers(tokens: seq<Token>)
    requires forall t :: t in tokens && IsComment(t) ==> ExpectedCode(t.text).None?
    ensures CollectExpected(tokens) == []
  {
  }

  /** Scan order is kept: a stretch without the end-of-file token
      contributes its expectations ahead of everything after it. */
  lemma {:induction false} CollectAppend(a: seq<Token>, b: seq<Token>)
    requires forall i :: 0 <= i < |a| ==> a[i].kind != EndOfFileToken
    ensures CollectExpected(a + b) == CollectExpected(a) + CollectExpected(b)
  {
    if |a| == 0 {
      assert a + b == b;
    } else {
      var head := FirstExpectation(a);
      var x, y := CollectExpected(a[1..]), CollectExpected(b);
      calc {
        CollectExpected(a + b);
      == { CollectConsStep(a, b); }
        head + CollectExpected(a[1..] + b);
      == { CollectAppend(a[1..], b); }
        head + (x + y);
      ==
        (head + x) + y;
      == { CollectStep(a); }
        CollectExpected(a) + y;
      }
    }
  }

  /** One step of the scan loop over a concatenation whose first part is
      not empty. */
  lemma CollectConsStep(a: seq<Token>, b: seq<Token>)
    requires |a| > 0 && a[0].kind != EndOfFileToken
    ensures CollectExpected(a + b) == FirstExpectation(a) + CollectExpected(a[1..] + b)
  {
    assert (a + b)[0] == a[0] && (a + b)[1..] == a[1..] + b;
    CollectStep(a + b);
  }

  /** The expectation of the first token, if it has one. */
  function FirstExpectation(tokens: seq<Token>): seq<Expectation>
    requires |tokens| > 0
  {
    match TokenExpectation(tokens[0])
    case Some(e) => [e]
    case None => []
  }

  /** One step of the scan loop. */
  lemma CollectStep(tokens: seq<Token>)
    requires |tokens| > 0 && tokens[0].kind != EndOfFileToken
    ensures CollectExpected(tokens) == FirstExpectation(tokens) + CollectExpected(tokens[1..])
  {
  }

  /** Tokens after the end-of-file token are never examined. */
  lemma StopsAtEnd(a: seq<Token>, eof: Token, b: seq<Token>)
    requires forall i :: 0 <= i < |a| ==> a[i].kind != EndOfFileToken
    requires eof.kind == EndOfFileToken
    ensures CollectExpected(a + [eof] + b) == CollectExpected(a)
  {
    assert a + [eof] + b == a + ([eof] + b);
    CollectAppend(a, [eof] + b);
  }

  /** Every expectation comes from a marked comment on its line. */
  lemma {:induction false} CollectSound(tokens: seq<Token>, e: Expectation)
    requires e in CollectExpected(tokens)
    ensures exists t ::
      t in tokens && IsComment(t) && t.line == e.line && ExpectedCode(t.text) == Some(e.code)
  {
    CollectStep(tokens);
    if FirstExpectation(tokens) == [e] {
      assert tokens[0] in tokens;
    } else {
      assert e in CollectExpected(tokens[1..]);
      CollectSound(tokens[1..], e);
      var t :| t in tokens[1..] && IsComment(t) &&
        t.line == e.line && ExpectedCode(t.text) == Some(e.code);
      assert t in tokens;
    }
  }

  /** Every marked comment before the end-of-file token yields its
      expectation. */
  lemma {:induction false} CollectComplete(tokens: seq<Token>, k: nat)
    requires k < |tokens|
    requires forall i :: 0 <= i <= k ==> tokens[i].kind != EndOfFileToken
    requires IsComment(tokens[k]) && ExpectedCode(tokens[k].text).Some?
    ensures Expectation(tokens[k].line, ExpectedCode(tokens[k].text).value) in CollectExpected(tokens)
  {
    CollectStep(tokens);
    if k > 0 {
      assert tokens[1..][k - 1] == tokens[k];
      CollectComplete(tokens[1..], k - 1);
    }
  }

}

=== FILE: scenarios.dfy ===
/** The situations exercised by the repository's own tests, and the
    failures the test runner collects from them. */
module Scenarios {
  import opened Wrappers
  import opened Decimal
  import opened Diagnostics
  import opened Scanner
  import opened Matcher
  import opened Expected
  import opened Reporter
  import opened Ancestor
  import opened TypeTester

  /** A failure the test runner records: the suite's name and the case's
      name, which it prints joined by " >> ". */
  datatype Failed = Failed(suite: string, test: string)

  /** The failing cases of one suite. */
  function FailingIn(name: string, tests: seq<TestCase>): seq<Failed> {
    if |tests| == 0 then []
    else (if tests[0].passes then [] else [Failed(name, tests[0].name)]) + FailingIn(name, tests[1..])
  }

  /** Every failure of a run, suite by suite. */
  function Failing(suites: seq<Suite>): seq<Failed> {
    if |suites| == 0 then [] else FailingIn(suites[0].name, suites[0].tests) + Failing(suites[1..])
  }

  lemma FailingOfTwo(a: Suite, b: Suite)
    ensures Failing([a, b]) == FailingIn(a.name, a.tests) + FailingIn(b.name, b.tests)
  {
    assert [a, b][1..] == [b];
    assert Failing([b]) == FailingIn(b.name, b.tests) + [];
  }

  lemma FailingOfOne(name: string, t: TestCase)
    requires !t.passes
    ensures FailingIn(name, [t]) == [Failed(name, t.name)]
  {
    assert FailingIn(name, [t]) == [Failed(name, t.name)] + [];
  }

  /** The failures of consecutive suites are those of each part in turn. */
  lemma {:induction false} FailingAppend(a: seq<Suite>, b: seq<Suite>)
    ensures Failing(a + b) == Failing(a) + Failing(b)
  {
    if |a| > 0 {
      assert (a + b)[1..] == a[1..] + b;
      FailingAppend(a[1..], b);
    } else {
      assert a + b == b;
    }
  }

  /** A suite records one failure per failing case, all under its name. */
  lemma {:induction false} FailingInCount(name: string, tests: seq<TestCase>)
    ensures |FailingIn(name, tests)| == Failures(tests)
    ensures forall x :: x in FailingIn(name, tests) ==> x.suite == name
  {
    if |tests| > 0 {
      FailingInCount(name, tests[1..]);
    }
  }

  lemma FileSuitesOfTwo(a: SourceFile, b: SourceFile, fixtureFiles: seq<string>, n: nat, suites: seq<Suite>)
    requires FileSuite(a, fixtureFiles, n) + FileSuite(b, fixtureFiles, n) == suites
    ensures FileSuites([a, b], fixtureFiles, n) == suites
  {
    assert [a, b][1..] == [b];
    assert FileSuites([b], fixtureFiles, n) == FileSuite(b, fixtureFiles, n) + [];
  }

  /** A skipped file followed by two files with a suite each. */
  lemma SkippedThenTwo(a: SourceFile, b: SourceFile, c: SourceFile, fixtureFiles: seq<string>, n: nat,
                       sb: Suite, sc: Suite)
    requires FileSuite(a, fixtureFiles, n) == []
    requires FileSuite(b, fixtureFiles, n) == [sb] && FileSuite(c, fixtureFiles, n) == [sc]
    ensures FileSuites([a, b, c], fixtureFiles, n) == [sb, sc]
  {
    assert [a, b, c][1..] == [b, c];
    FileSuitesOfTwo(b, c, fixtureFiles, n, [sb, sc]);
  }

  /** An absolute directory path with its trailing slash, as the common
      ancestor is written. */
  predicate IsDir(dir: string) {
    |dir| >= 2 && dir[0] == '/' && dir[|dir| - 1] == '/' && dir[|dir| - 2] != '/'
  }

  /** The directory `path.dirname` gives for a file directly inside `dir`. */
  function Parent(dir: string): string
    requires |dir| >= 2
  {
    dir[..|dir| - 1]
  }

  /** With one fixture, the common ancestor is the fixture's directory. */
  lemma SingleAncestor(dir: string, name: string)
    requires IsDir(dir)
    ensures CommonAncestorOf(Parent(dir), [dir + name], '/') == dir
  {
    assert [dir + name][1..] == [];
    assert Parent(dir) + ['/'] == dir;
  }

  /** A run over one fixture next to a default-library file: the failures
      are those of the miscellaneous suite, then those of the fixture's
      suite, named by the fixture's file name. */
  lemma LoneFixtureRun(dir: string, name: string, fixture: SourceFile, lib: SourceFile, options: seq<Diagnostic>)
    requires IsDir(dir) && '\\' !in dir + name && fixture.fileName == dir + name
    requires lib.isDefaultLibrary && lib.fileName != dir + name
    ensures var r := Verify([dir + name], _ => Parent(dir), '/', Program([lib, fixture], options, []));
      r.Success? &&
      Failing(r.value) == FailingIn(MiscName, UnexpectedErrors(options)) + FailingIn(name, VerifyFixture(fixture))
  {
    var path := dir + name;
    var program := Program([lib, fixture], options, []);
    SingleAncestor(dir, name);
    assert FileSuites(program.sourceFiles, [path], |dir|) == [Suite(name, VerifyFixture(fixture))] by {
      LoneFixtureParts(dir, name, fixture, lib);
      FileSuitesOfTwo(lib, fixture, [path], |dir|, [Suite(name, VerifyFixture(fixture))]);
    }
    assert options + [] == options;
    FailingOfTwo(Suite(MiscName, VerifyMisc(program)), Suite(name, VerifyFixture(fixture)));
  }

  /** A fixture whose cases all pass, next to a default-library file and
      with clean compiler options: the run has no failure at all. */
  lemma CleanRun(dir: string, name: string, fixture: SourceFile, lib: SourceFile)
    requires IsDir(dir) && '\\' !in dir + name && fixture.fileName == dir + name
    requires lib.isDefaultLibrary && lib.fileName != dir + name
    requires Failures(VerifyFixture(fixture)) == 0
    ensures var r := Verify([dir + name], _ => Parent(dir), '/', Program([lib, fixture], [], []));
      r.Success? && Failing(r.value) == []
  {
    LoneFixtureRun(dir, name, fixture, lib, []);
    FailingInCount(name, VerifyFixture(fixture));
  }

  /** A single fixture with one error it does not announce: the only
      failure is that error, in the suite named after the fixture's file
      name. */
  lemma UnannouncedError(dir: string, name: string, d: Diagnostic, lib: SourceFile)
    requires IsDir(dir) && '\\' !in dir + name
    requires d.category == Error
    requires lib.isDefaultLibrary && lib.fileName != dir + name
    ensures var fixture := SourceFile(dir + name, false, false, [], [], [d], []);
      var r := Verify([dir + name], _ => Parent(dir), '/', Program([lib, fixture], [], []));
      r.Success? && Failing(r.value) == [Failed(name, ReportUnexpected(d).name)]
  {
    var fixture := SourceFile(dir + name, false, false, [], [], [d], []);
    assert VerifyFixture(fixture) == [ReportUnexpected(d)] by {
      assert FileDiagnostics(fixture) == [d];
      OneError(d);
      UnmarkedFixture(fixture);
    }
    CleanOptions();
    LoneFixtureRun(dir, name, fixture, lib, []);
    FailingOfOne(name, ReportUnexpected(d));
  }

  /** A fixture with one marker comment and no diagnostic: the only failure
      is the expectation of that comment's line and code. */
  lemma MissingExpectation(dir: string, name: string, t: Token, code: nat, lib: SourceFile)
    requires IsDir(dir) && '\\' !in dir + name
    requires IsComment(t) && ExpectedCode(t.text) == Some(code)
    requires lib.isDefaultLibrary && lib.fileName != dir + name
    ensures var fixture := SourceFile(dir + name, false, false, [], [], [], [t]);
      var r := Verify([dir + name], _ => Parent(dir), '/', Program([lib, fixture], [], []));
      r.Success? &&
      Failing(r.value) == [Failed(name, ReportExpected(Key(Expectation(t.line, code)), None).name)]
  {
    var fixture := SourceFile(dir + name, false, false, [], [], [], [t]);
    var e := Expectation(t.line, code);
    LoneFixtureRun(dir, name, fixture, lib, []);
    assert VerifyFixture(fixture) == [ReportExpected(Key(e), None)] by {
      OneMarker(t, code);
      UnmetMarker(fixture, e);
    }
    FailingOfOne(name, ReportExpected(Key(e), None));
  }

  /** A fixture whose cases all pass, importing a source file of its own
      directory that has one error: the only failure is that error, in the
      suite named after the source file. */
  lemma ErrorInSource(dir: string, name: string, fixture: SourceFile, srcName: string, src: SourceFile,
                      d: Diagnostic, lib: SourceFile)
    requires IsDir(dir) && '\\' !in dir + name && fixture.fileName == dir + name
    requires Failures(VerifyFixture(fixture)) == 0
    requires src.fileName == dir + srcName && srcName != name
    requires !src.isDefaultLibrary && !src.isFromExternalLibrary
    requires FileDiagnostics(src) == [d] && d.category == Error
    requires lib.isDefaultLibrary && lib.fileName != dir + name
    ensures var r := Verify([dir + name], _ => Parent(dir), '/', Program([lib, src, fixture], [], []));
      r.Success? && Failing(r.value) == [Failed(srcName, ReportUnexpected(d).name)]
  {
    var path := dir + name;
    var srcSuite := Suite(srcName, [ReportUnexpected(d)]);
    var fixtureSuite := Suite(name, VerifyFixture(fixture));
    SingleAncestor(dir, name);
    assert FileSuites([lib, src, fixture], [path], |dir|) == [srcSuite, fixtureSuite] by {
      assert FileSuite(src, [path], |dir|) == [srcSuite] by {
        SourceRole(dir, name, srcName, src);
        OneError(d);
      }
      LoneFixtureRoles(path, fixture, lib);
      SkippedSuite(lib, [path], |dir|);
      assert FileSuite(fixture, [path], |dir|) == [fixtureSuite] by {
        assert path[|dir|..] == name;
        FixtureSuite(fixture, [path], |dir|, name);
      }
      SkippedThenTwo(lib, src, fixture, [path], |dir|, srcSuite, fixtureSuite);
    }
    assert Failing([Suite(MiscName, [])] + [srcSuite, fixtureSuite]) ==
      [Failed(srcName, ReportUnexpected(d).name)] by {
      FailingOfTwo(srcSuite, fixtureSuite);
      FailingOfOne(srcName, ReportUnexpected(d));
      FailingInCount(name, VerifyFixture(fixture));
      FailingAppend([Suite(MiscName, [])], [srcSuite, fixtureSuite]);
      assert Failing([Suite(MiscName, [])]) == [] + Failing([]);
    }
  }

  /** A non-library file of the fixture's directory that is not the
      fixture is a dependency source, shown by its own file name. */
  lemma SourceRole(dir: string, name: string, srcName: string, src: SourceFile)
    requires '\\' !in dir + name && src.fileName == dir + srcName && srcName != name
    requires !src.isDefaultLibrary && !src.isFromExternalLibrary
    ensures FileSuite(src, [dir + name], |dir|) == [Suite(srcName, VerifySource(src))]
  {
    var path := dir + name;
    NormalizeKeepsSlashes(path);
    assert src.fileName != path by {
      assert (dir + srcName)[|dir|..] == srcName;
      assert path[|dir|..] == name;
    }
    assert !IsRoot(src.fileName, [path][1..]);
    assert DisplayName(src.fileName, |dir|) == srcName by {
      assert (dir + srcName)[|dir|..] == srcName;
    }
    SourceSuite(src, [path], |dir|, srcName);
  }

  /** Two fixtures in sibling directories `a` and `b` of `dir`, where `a`
      is not a character prefix of `b`: the common ancestor is `dir`, and
      each fixture is shown by its path below it. */
  lemma SiblingFixtures(dir: string, a: string, n1: string, b: string, n2: string)
    requires IsDir(dir)
    requires |a| > 0 && '/' !in a && '/' !in b && !(a <= b)
    ensures var f1 := dir + (a + ("/" + n1));
      var f2 := dir + (b + ("/" + n2));
      var ancestor := CommonAncestorOf(dir + a, [f1, f2], '/');
      ancestor == dir &&
      DisplayName(f1, |ancestor|) == a + ("/" + n1) &&
      DisplayName(f2, |ancestor|) == b + ("/" + n2)
  {
    var f1 := dir + (a + ("/" + n1));
    var f2 := dir + (b + ("/" + n2));
    var d := dir + a;
    var r := Narrow(d, f2, '/');
    assert r == Parent(dir) by {
      var k := FirstMismatch(d, f2, 0);
      assert |dir| <= k < |d| by {
        SiblingMismatch(dir, a, b, n2);
      }
      assert LastSepBefore(d, k, '/') == |dir| - 1 by {
        assert forall i :: |dir| - 1 < i < k ==> d[i] == a[i - |dir|];
        LastSepAt(d, |dir| - 1, k, '/');
      }
    }
    assert CommonAncestorOf(d, [f1, f2], '/') == dir by {
      assert [f1, f2][1..] == [f2];
      var files: seq<string> := [f2];
      assert files[..0] == [];
      assert NarrowAll(d, [f2], '/') == r;
      assert r + "/" == dir;
    }
    assert f1[|dir|..] == a + ("/" + n1);
    assert f2[|dir|..] == b + ("/" + n2);
  }

  /** `dir + a` and a path below the sibling `dir + b` first differ inside
      `a`, when `a` is not a character prefix of `b`. */
  lemma SiblingMismatch(dir: string, a: string, b: string, n2: string)
    requires |dir| > 0 && |a| > 0 && '/' !in a && !(a <= b)
    ensures var k := FirstMismatch(dir + a, dir + (b + ("/" + n2)), 0);
      |dir| <= k < |dir + a|
  {
    var d := dir + a;
    var f2 := dir + (b + ("/" + n2));
    assert forall i :: 0 <= i < |dir| ==> d[i] == f2[i];
    assert !(d <= f2) by {
      ComponentPrefix(a, b, "/" + n2);
      assert d <= f2 ==> a <= b + ("/" + n2) by {
        assert forall i :: 0 <= i < |a| ==> d[|dir| + i] == a[i];
        assert forall i :: 0 <= i < |f2| - |dir| ==> f2[|dir| + i] == (b + ("/" + n2))[i];
      }
    }
  }

  /** A name without a separator begins `b + "/" + ...` only if it begins
      `b` itself. */
  lemma ComponentPrefix(a: string, b: string, rest: string)
    requires '/' !in a && |rest| > 0 && rest[0] == '/'
    ensures a <= b + rest ==> a <= b
  {
    var q := b + rest;
    if a <= q {
      assert forall i :: 0 <= i < |a| ==> q[i] == a[i] && a[i] != '/';
      assert q[|b|] == '/';
      assert |a| <= |b|;
      assert a == b[..|a|];
    }
  }

  /** As written, a sibling directory `b` that continues the name `a` keeps
      `dir + a + "/"` as the common ancestor, which is no directory of the
      second fixture; its display name loses the first `|a| + 1` characters
      of `b`. */
  lemma SiblingPrefixAncestor(dir: string, a: string, n1: string, b: string, n2: string)
    requires IsDir(dir)
    requires |a| > 0 && '/' !in a && '/' !in b && a <= b && a != b
    ensures var f1 := dir + (a + ("/" + n1));
      var f2 := dir + (b + ("/" + n2));
      var ancestor := CommonAncestorOf(dir + a, [f1, f2], '/');
      ancestor == dir + a + "/" && !(ancestor <= f2) &&
      DisplayName(f2, |ancestor|) == b[|a| + 1..] + ("/" + n2)
  {
    var f1 := dir + (a + ("/" + n1));
    var f2 := dir + (b + ("/" + n2));
    var d := dir + a;
    assert d <= f2 by {
      assert forall i :: |dir| <= i < |d| ==> d[i] == b[i - |dir|] == f2[i];
    }
    assert Narrow(d, f2, '/') == d by {
      NarrowSpec(d, f2, '/');
    }
    var ancestor := d + "/";
    assert CommonAncestorOf(d, [f1, f2], '/') == ancestor by {
      assert [f1, f2][1..] == [f2];
      var files: seq<string> := [f2];
      assert files[..0] == [];
      assert NarrowAll(d, [f2], '/') == d;
      assert d[|d| - 1] == a[|a| - 1] && a[|a| - 1] in a;
    }
    assert !(ancestor <= f2) by {
      assert ancestor[|d|] == '/';
      assert f2[|d|] == b[|a|] && b[|a|] in b;
    }
    assert f2[|ancestor|..] == b[|a| + 1..] + ("/" + n2);
  }

  /** The case name the repository's tests look for when a fixture has an
      error TS2345 on the 98th line, 17th column. */
  lemma UnexpectedFixtureName(d: Diagnostic)
    requires d.code == 2345 && d.hasFile && d.start == Some(Position(97, 16))
    ensures ReportUnexpected(d).name == "should not have an error TS2345 at 98:17"
  {
    assert Show(2345) == "2345" by {
      assert Show(234) == "234" by {
        assert Show(23) == "23";
      }
    }
    assert LocationText(d) == " at 98:17" by {
      assert Show(98) == "98";
      assert Show(17) == "17";
    }
  }

  /** The case name for an error TS7006 at 396:5 of a source file. */
  lemma UnexpectedSourceName(d: Diagnostic)
    requires d.code == 7006 && d.hasFile && d.start == Some(Position(395, 4))
    ensures ReportUnexpected(d).name == "should not have an error TS7006 at 396:5"
  {
    assert Show(7006) == "7006" by {
      assert Show(700) == "700" by {
        assert Show(70) == "70";
      }
    }
    assert LocationText(d) == " at 396:5" by {
      assert Show(396) == "396" by {
        assert Show(39) == "39";
      }
      assert Show(5) == "5";
    }
  }

  /** The case name for an unmet expectation of TS2345 on the 13th line. */
  lemma MissingExpectationName()
    ensures ReportExpected(Key(Expectation(12, 2345)), None).name == "should have an error TS2345 at L13."
  {
    assert Show(2345) == "2345" by {
      assert Show(234) == "234" by {
        assert Show(23) == "23";
      }
    }
    assert Show(13) == "13";
  }

  /** A comment token that carries a marker is one expectation. */
  lemma OneMarker(t: Token, code: nat)
    requires IsComment(t) && ExpectedCode(t.text) == Some(code)
    ensures CollectExpected([t]) == [Expectation(t.line, code)]
  {
    assert [t][1..] == [];
  }

  /** A fixture with one expectation and no diagnostic has one case: the
      failing case of that expectation. */
  lemma UnmetMarker(f: SourceFile, e: Expectation)
    requires FileDiagnostics(f) == [] && CollectExpected(f.tokens) == [e]
    ensures VerifyFixture(f) == [ReportExpected(Key(e), None)]
  {
    var o := [Outcome(e, None)];
    assert FixtureMatch(f) == MatchResult(o, []) by {
      assert Pool([]) == [];
      assert MatchOne([], e) == Step(None, []);
      assert [e][1..] == [];
    }
    assert FixtureEntries(f) == [Entry(Key(e), None)] by {
      DistinctEntries(o);
    }
    assert ReportAll([]) == [];
    assert ReportEntries([Entry(Key(e), None)]) == [ReportExpected(Key(e), None)];
  }

  /** An error in the compiler options: the `(misc)` suite fails exactly
      once, for that error, and every other failure belongs to the
      fixture's suite. */
  lemma OptionError(dir: string, name: string, fixture: SourceFile, d: Diagnostic, lib: SourceFile)
    requires IsDir(dir) && '\\' !in dir + name && fixture.fileName == dir + name
    requires d.category == Error
    requires lib.isDefaultLibrary && lib.fileName != dir + name
    ensures var r := Verify([dir + name], _ => Parent(dir), '/', Program([lib, fixture], [d], []));
      r.Success? &&
      FailingIn(MiscName, r.value[0].tests) == [Failed(MiscName, ReportUnexpected(d).name)] &&
      Failing(r.value) == [Failed(MiscName, ReportUnexpected(d).name)] + FailingIn(name, VerifyFixture(fixture)) &&
      forall x :: x in FailingIn(name, VerifyFixture(fixture)) ==> x.suite == name
  {
    LoneFixtureRun(dir, name, fixture, lib, [d]);
    FailingInCount(name, VerifyFixture(fixture));
    OneError(d);
    FailingOfOne(MiscName, ReportUnexpected(d));
  }

  /** Without option diagnostics the `(misc)` suite has no failure. */
  lemma CleanOptions()
    ensures FailingIn(MiscName, UnexpectedErrors([])) == []
  {
    assert UnexpectedErrors([]) == [];
  }

  /** A single error diagnostic is one failing case. */
  lemma OneError(d: Diagnostic)
    requires d.category == Error
    ensures UnexpectedErrors([d]) == [ReportUnexpected(d)]
  {
    assert Pool([d]) == [d];
  }

  /** A lone fixture beside a default-library file gets the only file
      suite, named by its path inside `dir`. */
  lemma LoneFixtureParts(dir: string, name: string, fixture: SourceFile, lib: SourceFile)
    requires '\\' !in dir + name && fixture.fileName == dir + name
    requires lib.isDefaultLibrary && lib.fileName != dir + name
    ensures FileSuite(lib, [dir + name], |dir|) + FileSuite(fixture, [dir + name], |dir|) ==
      [Suite(name, VerifyFixture(fixture))]
  {
    var path := dir + name;
    LoneFixtureRoles(path, fixture, lib);
    SkippedSuite(lib, [path], |dir|);
    assert path[|dir|..] == name;
    FixtureSuite(fixture, [path], |dir|, name);
  }

  lemma SkippedSuite(f: SourceFile, fixtureFiles: seq<string>, n: nat)
    requires Classify(f, fixtureFiles) == Excluded
    ensures FileSuite(f, fixtureFiles, n) == []
  {
  }

  lemma FixtureSuite(f: SourceFile, fixtureFiles: seq<string>, n: nat, name: string)
    requires Classify(f, fixtureFiles) == Fixture
    requires DisplayName(f.fileName, n) == name
    ensures FileSuite(f, fixtureFiles, n) == [Suite(name, VerifyFixture(f))]
  {
  }

  lemma SourceSuite(f: SourceFile, fixtureFiles: seq<string>, n: nat, name: string)
    requires Classify(f, fixtureFiles) == DependencySource
    requires DisplayName(f.fileName, n) == name
    ensures FileSuite(f, fixtureFiles, n) == [Suite(name, VerifySource(f))]
  {
  }

  /** The lone fixture is a fixture and the library file is skipped. */
  lemma LoneFixtureRoles(path: string, fixture: SourceFile, lib: SourceFile)
    requires '\\' !in path && fixture.fileName == path
    requires lib.isDefaultLibrary && lib.fileName != path
    ensures Classify(fixture, [path]) == Fixture
    ensures Classify(lib, [path]) == Excluded
  {
    NormalizeKeepsSlashes(path);
    assert !IsRoot(lib.fileName, [path][1..]);
  }
}

=== FILE: setops.dfy ===
/** A JavaScript `Set` of diagnostics, iterated in insertion order, is
    modelled as a duplicate-free sequence; these are the facts about
    deleting members from it that the matcher relies on. */
module SetOps {
  import opened Diagnostics

  function SetOf(s: seq<Diagnostic>): set<Diagnostic> {
    set d | d in s
  }

  /** The members of `s` that are not in `x`, in their order in `s`: what
      remains of the `Set` after deleting the members of `x`. */
  function Without(s: seq<Diagnostic>, x: set<Diagnostic>): (r: seq<Diagnostic>)
    ensures forall d :: d in r <==> d in s && d !in x
  {
    if |s| == 0 then []
    else Without(s[..|s| - 1], x) + (if s[|s| - 1] in x then [] else [s[|s| - 1]])
  }

  lemma {:induction false} WithoutConcat(a: seq<Diagnostic>, b: seq<Diagnostic>, x: set<Diagnostic>)
    ensures Without(a + b, x) == Without(a, x) + Without(b, x)
  {
    if |b| == 0 {
      assert a + b == a;
    } else {
      assert (a + b)[..|a + b| - 1] == a + b[..|b| - 1];
      WithoutConcat(a, b[..|b| - 1], x);
    }
  }

  lemma {:induction false} WithoutNothing(s: seq<Diagnostic>, x: set<Diagnostic>)
    requires forall d :: d in s ==> d !in x
    ensures Without(s, x) == s
  {
    if |s| > 0 {
      WithoutNothing(s[..|s| - 1], x);
      assert s == s[..|s| - 1] + [s[|s| - 1]];
    }
  }

  /** Deleting `a` and then `b` is deleting both at once. */
  lemma {:induction false} WithoutTwice(s: seq<Diagnostic>, a: set<Diagnostic>, b: set<Diagnostic>)
    ensures Without(Without(s, a), b) == Without(s, a + b)
  {
    if |s| > 0 {
      var init := s[..|s| - 1];
      var last := s[|s| - 1];
      WithoutTwice(init, a, b);
      var lastPart := if last in a then [] else [last];
      WithoutConcat(Without(init, a), lastPart, b);
      if last !in a {
        assert lastPart[..0] == [];
      }
    }
  }

  lemma {:induction false} WithoutKeepsDistinct(s: seq<Diagnostic>, x: set<Diagnostic>)
    requires NoDuplicates(s)
    ensures NoDuplicates(Without(s, x))
  {
    if |s| > 0 {
      var init := s[..|s| - 1];
      assert NoDuplicates(init);
      WithoutKeepsDistinct(init, x);
      assert s[|s| - 1] !in init;
    }
  }

  /** In a duplicate-free sequence an element occurs neither before nor
      after its own position. */
  lemma UniqueAt(s: seq<Diagnostic>, i: nat)
    requires NoDuplicates(s) && i < |s|
    ensures s[i] !in s[..i] && s[i] !in s[i + 1..]
  {
    assert forall k :: 0 <= k < i ==> s[..i][k] == s[k] != s[i];
    assert forall k :: i < k < |s| ==> s[i + 1..][k - i - 1] == s[k] != s[i];
  }

  /** Deleting the element at `i` of a duplicate-free sequence is deleting
      that value. */
  lemma RemoveAtIsWithout(s: seq<Diagnostic>, i: nat)
    requires NoDuplicates(s) && i < |s|
    ensures s[..i] + s[i + 1..] == Without(s, {s[i]})
  {
    var a, y, b := s[..i], s[i], s[i + 1..];
    var x := {y};
    UniqueAt(s, i);
    assert Without([y], x) == [] by {
      assert [y][..0] == [];
    }
    assert s == (a + [y]) + b;
    calc {
      Without(s, x);
      { WithoutConcat(a + [y], b, x); }
      Without(a + [y], x) + Without(b, x);
      { WithoutConcat(a, [y], x); }
      Without(a, x) + Without([y], x) + Without(b, x);
      { WithoutNothing(a, x); WithoutNothing(b, x); }
      a + [] + b;
      { assert a + [] == a; }
      a + b;
    }
  }

  lemma {:induction false} CountAtMostOne(s: seq<Diagnostic>, x: Diagnostic)
    requires NoDuplicates(s)
    ensures multiset(s)[x] <= 1
  {
    if |s| > 0 {
      var init := s[..|s| - 1];
      assert s == init + [s[|s| - 1]];
      assert NoDuplicates(init);
      CountAtMostOne(init, x);
      assert s[|s| - 1] !in init;
    }
  }

  lemma TwoCopies(s: seq<Diagnostic>, i: nat, j: nat)
    requires i < j < |s| && s[i] == s[j]
    ensures multiset(s)[s[i]] >= 2
  {
    assert s == s[..j] + s[j..];
    assert s[i] in s[..j];
    assert s[j] in s[j..];
  }

  /** A sequence with the same elements, counted with multiplicity, as a
      duplicate-free one is itself duplicate-free. */
  lemma DistinctByMultiset(a: seq<Diagnostic>, b: seq<Diagnostic>)
    requires multiset(a) == multiset(b) && NoDuplicates(b)
    ensures NoDuplicates(a)
  {
    forall i, j | 0 <= i < j < |a|
      ensures a[i] != a[j]
    {
      CountAtMostOne(b, a[i]);
      if a[i] == a[j] {
        TwoCopies(a, i, j);
      }
    }
  }

  lemma AppendAssoc<T>(p: seq<T>, q: seq<T>, r: seq<T>)
    ensures (p + q) + r == p + (q + r)
  {
  }

  /** Adding one diagnostic to the `Set`: it is appended unless present. */
  lemma DedupSnoc(s: seq<Diagnostic>, d: Diagnostic)
    ensures Dedup(s + [d]) == if d in s then Dedup(s) else Dedup(s) + [d]
  {
    assert (s + [d])[..|s|] == s;
  }

  lemma WithoutSnoc(s: seq<Diagnostic>, d: Diagnostic, x: set<Diagnostic>)
    ensures Without(s + [d], x) == if d in x then Without(s, x) else Without(s, x) + [d]
  {
    assert (s + [d])[..|s|] == s;
  }

  /** `new Set(a.concat(b))` iterates in insertion order: the distinct
      members of `a` first, then those of `b` that `a` does not hold. With
      `DedupOfDistinct` on a single diagnostic this fixes `Dedup` completely. */
  lemma {:induction false} DedupAppend(a: seq<Diagnostic>, b: seq<Diagnostic>)
    ensures Dedup(a + b) == Dedup(a) + Without(Dedup(b), SetOf(a))
    decreases |b|
  {
    if |b| == 0 {
      assert a + b == a;
    } else {
      var init := b[..|b| - 1];
      var last := b[|b| - 1];
      assert b == init + [last];
      assert a + b == (a + init) + [last];
      var x := SetOf(a);
      var w := Without(Dedup(init), x);
      DedupAppend(a, init);
      DedupSnoc(a + init, last);
      DedupSnoc(init, last);
      if last in init {
        assert last in a + init;
        assert Dedup(b) == Dedup(init);
      } else {
        WithoutSnoc(Dedup(init), last, x);
        if last in a {
          assert last in a + init && last in x;
          assert Without(Dedup(b), x) == w;
        } else {
          assert last !in a + init && last !in x;
          calc {
            Dedup(a + b);
            Dedup(a + init) + [last];
            (Dedup(a) + w) + [last];
            { AppendAssoc(Dedup(a), w, [last]); }
            Dedup(a) + (w + [last]);
            Dedup(a) + Without(Dedup(b), x);
          }
        }
      }
    }
  }

  /** The pool keeps the order of first occurrence: the errors of `a`
      first, then the errors of `b` not already among them. */
  lemma PoolAppend(a: seq<Diagnostic>, b: seq<Diagnostic>)
    ensures Pool(a + b) == Pool(a) + Without(Pool(b), SetOf(ErrorsOnly(a)))
  {
    ErrorsOnlyAppend(a, b);
    DedupAppend(ErrorsOnly(a), ErrorsOnly(b));
  }

  /** A concrete witness of the order: a diagnostic seen again later keeps
      its first place. */
  lemma DedupKeepsFirst(x: Diagnostic, y: Diagnostic)
    requires x != y
    ensures Dedup([x, y, x]) == [x, y]
  {
    assert [x, y, x][..2] == [x, y];
    assert [x, y][..1] == [x];
    assert [x][..0] == [];
  }
}

=== FILE: typetester.dfy ===
/** `TypeTester.verify`: one suite for miscellaneous compiler errors, then
    one suite per fixture file and per non-library source file the program
    pulls in. The compiler is replaced by data: each source file arrives
    with its three diagnostic lists and its comment tokens already computed. */
module TypeTester {
  import opened Wrappers
  import opened Diagnostics
  import opened Scanner
  import opened Matcher
  import opened Expected
  import opened Reporter
  import opened Ancestor

  /** What `verify` asks the compiler about one source file. */
  datatype SourceFile = SourceFile(
    fileName: string,
    isDefaultLibrary: bool,
    isFromExternalLibrary: bool,
    syntactic: seq<Diagnostic>,
    declaration: seq<Diagnostic>,
    semantic: seq<Diagnostic>,
    tokens: seq<Token>)

  /** What `verify` asks the compiler about the whole program. */
  datatype Program = Program(
    sourceFiles: seq<SourceFile>,
    optionsDiagnostics: seq<Diagnostic>,
    configFileParsingDiagnostics: seq<Diagnostic>)

  /** One `describe(...)` call and the cases declared inside it. */
  datatype Suite = Suite(name: string, tests: seq<TestCase>)

  const MiscName := "(misc)"

  /** The three diagnostic lists of a file, concatenated in the order the
      source spreads them. */
  function FileDiagnostics(f: SourceFile): seq<Diagnostic> {
    f.syntactic + f.declaration + f.semantic
  }

  /** `verifyMisc`: every distinct error among the option and
      configuration-file diagnostics is one failing case. */
  function VerifyMisc(p: Program): (r: seq<TestCase>)
    ensures Failures(r) == |r| == |Pool(p.optionsDiagnostics + p.configFileParsingDiagnostics)|
  {
    UnexpectedErrors(p.optionsDiagnostics + p.configFileParsingDiagnostics)
  }

  /** `verifySource`: the same for the diagnostics of a dependency file. */
  function VerifySource(f: SourceFile): (r: seq<TestCase>)
    ensures Failures(r) == |r| == |Pool(FileDiagnostics(f))|
  {
    UnexpectedErrors(FileDiagnostics(f))
  }

  /** One failing case per distinct error diagnostic, in first-occurrence
      order. */
  function UnexpectedErrors(ds: seq<Diagnostic>): (r: seq<TestCase>)
    ensures Failures(r) == |r| == |Pool(ds)|
    ensures r == [] <==> forall d :: d in ds ==> d.category != Error
    ensures forall d :: d in ds && d.category == Error ==> ReportUnexpected(d) in r
    ensures forall t :: t in r ==> exists d :: d in ds && d.category == Error && t == ReportUnexpected(d)
  {
    var pool := Pool(ds);
    UnexpectedAllFail(pool);
    ReportAllMembers(pool);
    ReportAll(pool)
  }

  /** The matching loop of `verifyFixture` run over the file's error pool
      and the expectations of its comments. */
  function FixtureMatch(f: SourceFile): MatchResult {
    MatchAll(Pool(FileDiagnostics(f)), CollectExpected(f.tokens))
  }

  /** The `expectedDiagnostics` map of `verifyFixture`. */
  function FixtureEntries(f: SourceFile): seq<Entry> {
    BuildEntries(FixtureMatch(f).outcomes)
  }

  /** `verifyFixture`: a case per map entry, then a case per diagnostic no
      expectation took. */
  function VerifyFixture(f: SourceFile): seq<TestCase> {
    ReportEntries(FixtureEntries(f)) + ReportAll(FixtureMatch(f).leftover)
  }

  /** A fixture fails once per expectation left without a diagnostic and
      once per error diagnostic no expectation took. */
  lemma FixtureFailures(f: SourceFile)
    ensures Failures(VerifyFixture(f)) == |Missing(FixtureEntries(f))| + |FixtureMatch(f).leftover|
  {
    var m := FixtureMatch(f);
    FailuresAppend(ReportEntries(FixtureEntries(f)), ReportAll(m.leftover));
    ExpectedFailures(FixtureEntries(f));
    UnexpectedAllFail(m.leftover);
  }

  /** A fixture passes exactly when every expectation found its diagnostic
      and no error diagnostic was left unclaimed. */
  lemma FixturePasses(f: SourceFile)
    ensures Failures(VerifyFixture(f)) == 0 <==>
      (forall e :: e in FixtureEntries(f) ==> e.found.Some?) && FixtureMatch(f).leftover == []
  {
    FixtureFailures(f);
    var missing := Missing(FixtureEntries(f));
    assert |missing| == 0 <==> forall e :: e in FixtureEntries(f) ==> e.found.Some? by {
      if |missing| > 0 {
        assert missing[0] in missing;
      }
    }
  }

  /** A fixture without error diagnostics and without markers declares no
      case at all. */
  lemma CleanFixture(f: SourceFile)
    requires forall d :: d in FileDiagnostics(f) ==> d.category != Error
    requires forall t :: t in f.tokens && IsComment(t) ==> ExpectedCode(t.text).None?
    ensures VerifyFixture(f) == []
  {
    UnmarkedFixture(f);
  }

  /** A fixture without markers is checked exactly like a dependency
      source: each of its errors is one failing case. */
  lemma UnmarkedFixture(f: SourceFile)
    requires forall t :: t in f.tokens && IsComment(t) ==> ExpectedCode(t.text).None?
    ensures VerifyFixture(f) == VerifySource(f)
  {
    var pool := Pool(FileDiagnostics(f));
    NoMarkers(f.tokens);
    assert FixtureMatch(f) == MatchResult([], pool);
    assert VerifyFixture(f) == [] + ReportAll(pool);
  }

  /** Every error diagnostic of a fixture either satisfies an expectation or
      is reported as unexpected. */
  lemma FixtureAccountsForErrors(f: SourceFile, d: Diagnostic)
    requires d in FileDiagnostics(f) && d.category == Error
    ensures d in Found(FixtureMatch(f).outcomes) || ReportUnexpected(d) in VerifyFixture(f)
  {
    var m := FixtureMatch(f);
    assert d in Found(m.outcomes) || d in m.leftover by {
      MatchPartition(Pool(FileDiagnostics(f)), CollectExpected(f.tokens));
    }
    if d in m.leftover {
      LeftoverReported(ReportEntries(FixtureEntries(f)), m.leftover, d);
    }
  }

  lemma LeftoverReported(front: seq<TestCase>, leftover: seq<Diagnostic>, d: Diagnostic)
    requires d in leftover
    ensures ReportUnexpected(d) in front + ReportAll(leftover)
  {
    var i :| 0 <= i < |leftover| && leftover[i] == d;
    assert (front + ReportAll(leftover))[|front| + i] == ReportUnexpected(d);
  }

  /** An expectation that is the only one with its (line, code) pair passes
      whenever the file has an error diagnostic with that code, starting on
      that line. */
  lemma ExpectationMet(f: SourceFile, i: nat, d: Diagnostic)
    requires var exps := CollectExpected(f.tokens);
      i < |exps| && forall j :: 0 <= j < |exps| && j != i ==> exps[j] != exps[i]
    requires d in FileDiagnostics(f) && d.category == Error
    requires Matches(d, CollectExpected(f.tokens)[i])
    ensures var found := Lookup(FixtureEntries(f), Key(CollectExpected(f.tokens)[i]));
      found.Some? && found.value.Some?
  {
    var exps := CollectExpected(f.tokens);
    var pool := Pool(FileDiagnostics(f));
    var outcomes := FixtureMatch(f).outcomes;
    assert exps[i] !in exps[..i];
    FreshExpectationIsSatisfied(pool, exps, i, d);
    OutcomesAlign(pool, exps);
    LastOneWins(outcomes, i);
  }

  /** Only errors count: warnings, suggestions and messages inserted
      anywhere among a file's diagnostics change none of its cases. */
  lemma OnlyErrorsMatter(f: SourceFile, g: SourceFile, k: nat, extra: seq<Diagnostic>)
    requires g.tokens == f.tokens
    requires k <= |FileDiagnostics(f)|
    requires FileDiagnostics(g) == FileDiagnostics(f)[..k] + extra + FileDiagnostics(f)[k..]
    requires forall d :: d in extra ==> d.category != Error
    ensures VerifyFixture(g) == VerifyFixture(f) && VerifySource(g) == VerifySource(f)
  {
    var ds := FileDiagnostics(f);
    assert ds == ds[..k] + ds[k..];
    InsertNonErrors(ds[..k], extra, ds[k..]);
    assert Pool(FileDiagnostics(g)) == Pool(ds);
  }

  lemma InsertNonErrors(a: seq<Diagnostic>, extra: seq<Diagnostic>, b: seq<Diagnostic>)
    requires forall d :: d in extra ==> d.category != Error
    ensures ErrorsOnly(a + extra + b) == ErrorsOnly(a + b)
  {
    calc {
      ErrorsOnly(a + extra + b);
    == { ErrorsOnlyAppend(a + extra, b); }
      ErrorsOnly(a + extra) + ErrorsOnly(b);
    == { ErrorsOnlyIgnoresOthers(a, extra); }
      ErrorsOnly(a) + ErrorsOnly(b);
    == { ErrorsOnlyAppend(a, b); }
      ErrorsOnly(a + b);
    }
  }

  /** Paths with every backslash turned into a slash. */
  function NormalizeSlashes(s: string): (r: string)
    ensures |r| == |s|
    ensures '\\' !in r
    ensures forall i :: 0 <= i < |s| && s[i] != '\\' ==> r[i] == s[i]
    ensures forall i :: 0 <= i < |s| && s[i] == '\\' ==> r[i] == '/'
  {
    if |s| == 0 then []
    else [if s[0] == '\\' then '/' else s[0]] + NormalizeSlashes(s[1..])
  }

  /** Normalizing a second time changes nothing. */
  lemma NormalizeIdempotent(s: string)
    ensures NormalizeSlashes(NormalizeSlashes(s)) == NormalizeSlashes(s)
  {
    var n := NormalizeSlashes(s);
    assert forall i :: 0 <= i < |n| ==> n[i] != '\\';
  }

  /** Paths that already use slashes are left alone. */
  lemma NormalizeKeepsSlashes(s: string)
    requires '\\' !in s
    ensures NormalizeSlashes(s) == s
  {
    assert forall i :: 0 <= i < |s| ==> s[i] != '\\';
  }

  /** How `verify` treats a source file of the program. */
  datatype FileRole = Fixture | DependencySource | Excluded

  /** The set `isRoot` tests membership in: the fixture paths with their
      backslashes normalized. */
  function Roots(fixtureFiles: seq<string>): set<string> {
    set f | f in fixtureFiles :: NormalizeSlashes(f)
  }

  /** The membership test of `isRoot`, one fixture path at a time. */
  function IsRoot(fileName: string, fixtureFiles: seq<string>): bool {
    |fixtureFiles| > 0 &&
    (NormalizeSlashes(fixtureFiles[0]) == fileName || IsRoot(fileName, fixtureFiles[1..]))
  }

  lemma {:induction false} IsRootSpec(fileName: string, fixtureFiles: seq<string>)
    ensures IsRoot(fileName, fixtureFiles) <==> fileName in Roots(fixtureFiles)
  {
    if |fixtureFiles| > 0 {
      IsRootSpec(fileName, fixtureFiles[1..]);
      assert Roots(fixtureFiles) == {NormalizeSlashes(fixtureFiles[0])} + Roots(fixtureFiles[1..]);
    }
  }

  function Classify(f: SourceFile, fixtureFiles: seq<string>): FileRole {
    if IsRoot(f.fileName, fixtureFiles) then Fixture
    else if !f.isDefaultLibrary && !f.isFromExternalLibrary then DependencySource
    else Excluded
  }

  /** A file is a fixture exactly when it is among the normalized fixture
      paths, even when it belongs to a library; any other file is skipped
      exactly when it belongs to the default library or to an external
      one. */
  lemma ClassifySpec(f: SourceFile, fixtureFiles: seq<string>)
    ensures Classify(f, fixtureFiles) == Fixture <==> f.fileName in Roots(fixtureFiles)
    ensures Classify(f, fixtureFiles) == Excluded <==>
      f.fileName !in Roots(fixtureFiles) && (f.isDefaultLibrary || f.isFromExternalLibrary)
  {
    IsRootSpec(f.fileName, fixtureFiles);
  }

  /** `file.fileName.slice(ancestorLength)`. */
  function DisplayName(fileName: string, n: nat): (r: string)
    ensures |r| == if n <= |fileName| then |fileName| - n else 0
  {
    if n <= |fileName| then fileName[n..] else ""
  }

  /** The name is the path relative to the ancestor whenever the ancestor is
      a prefix of it. */
  lemma DisplayNameRelative(ancestor: string, fileName: string)
    requires ancestor <= fileName
    ensures ancestor + DisplayName(fileName, |ancestor|) == fileName
  {
  }

  /** The suites of the loop over the program's files. */
  function FileSuite(f: SourceFile, fixtureFiles: seq<string>, n: nat): seq<Suite> {
    match Classify(f, fixtureFiles)
    case Fixture => [Suite(DisplayName(f.fileName, n), VerifyFixture(f))]
    case DependencySource => [Suite(DisplayName(f.fileName, n), VerifySource(f))]
    case Excluded => []
  }

  function FileSuites(files: seq<SourceFile>, fixtureFiles: seq<string>, n: nat): (r: seq<Suite>)
    ensures |r| <= |files|
  {
    if |files| == 0 then []
    else FileSuite(files[0], fixtureFiles, n) + FileSuites(files[1..], fixtureFiles, n)
  }

  /** The tests a file's suite holds. */
  function SuiteTests(f: SourceFile, fixtureFiles: seq<string>): seq<TestCase> {
    if Classify(f, fixtureFiles) == Fixture then VerifyFixture(f) else VerifySource(f)
  }

  /** Every file that is not skipped has its suite, and every suite belongs
      to such a file. */
  lemma {:induction false} FileSuitesSpec(files: seq<SourceFile>, fixtureFiles: seq<string>, n: nat)
    ensures forall s :: s in FileSuites(files, fixtureFiles, n) <==>
      exists f :: f in files && Classify(f, fixtureFiles) != Excluded &&
        s == Suite(DisplayName(f.fileName, n), SuiteTests(f, fixtureFiles))
  {
    if |files| > 0 {
      FileSuitesSpec(files[1..], fixtureFiles, n);
      FileSuiteMembers(files[0], fixtureFiles, n);
      assert FileSuites(files, fixtureFiles, n) ==
        FileSuite(files[0], fixtureFiles, n) + FileSuites(files[1..], fixtureFiles, n);
      assert forall f :: f in files <==> f == files[0] || f in files[1..];
    }
  }

  /** A file's own suite, if it has one. */
  lemma FileSuiteMembers(f: SourceFile, fixtureFiles: seq<string>, n: nat)
    ensures forall s :: s in FileSuite(f, fixtureFiles, n) <==>
      Classify(f, fixtureFiles) != Excluded &&
      s == Suite(DisplayName(f.fileName, n), SuiteTests(f, fixtureFiles))
  {
  }

  /** The suites of one run: `(misc)`, then the loop over the program's
      files, each shown without its first `n` characters. */
  function Suites(fixtureFiles: seq<string>, program: Program, n: nat): seq<Suite> {
    [Suite(MiscName, VerifyMisc(program))] + FileSuites(program.sourceFiles, fixtureFiles, n)
  }

  /** `verify`. The fixture paths are taken as already resolved; `dirname`
      and `sep` stand for `path.dirname` and `path.sep`. An empty fixture
      list fails, because `path.dirname` rejects the missing first path.
      Display names drop the length of the common ancestor as written. */
  function Verify(fixtureFiles: seq<string>, dirname: string -> string, sep: char, program: Program)
    : (r: Result<seq<Suite>, string>)
    ensures r.Failure? <==> |fixtureFiles| == 0
    ensures r.Success? ==> |r.value| >= 1 && r.value[0] == Suite(MiscName, VerifyMisc(program))
  {
    if |fixtureFiles| == 0 then Failure("path.dirname: the path argument is undefined")
    else
      var ancestor := CommonAncestorOf(dirname(fixtureFiles[0]), fixtureFiles, sep);
      Success(Suites(fixtureFiles, program, |ancestor|))
  }

  /** `verify` with the corrected common ancestor, which never ends inside a
      path component. */
  function VerifyCorrected(fixtureFiles: seq<string>, dirname: string -> string, sep: char, program: Program)
    : (r: Result<seq<Suite>, string>)
    ensures r.Failure? <==> |fixtureFiles| == 0
    ensures r.Success? ==> |r.value| >= 1 && r.value[0] == Suite(MiscName, VerifyMisc(program))
  {
    if |fixtureFiles| == 0 then Failure("path.dirname: the path argument is undefined")
    else
      var ancestor := CommonAncestorAlignedOf(dirname(fixtureFiles[0]), fixtureFiles, sep);
      Success(Suites(fixtureFiles, program, |ancestor|))
  }

  /** With the corrected ancestor, every fixture is shown by its path
      relative to that ancestor, provided the first fixture lies under its
      own directory. */
  lemma FixtureNamesRelative(fixtureFiles: seq<string>, dirname: string -> string, sep: char, k: nat)
    requires k < |fixtureFiles|
    requires WithTrailingSep(dirname(fixtureFiles[0]), sep) <= fixtureFiles[0]
    ensures var ancestor := CommonAncestorAlignedOf(dirname(fixtureFiles[0]), fixtureFiles, sep);
      ancestor + DisplayName(fixtureFiles[k], |ancestor|) == fixtureFiles[k]
  {
  }
}

=== FILE: wrappers.dfy ===
/** An optional value (the source's `null`/`undefined`) and a
    success-or-failure result carrying an error, used across the model. */
module Wrappers {

  datatype Option<+T> = None | Some(value: T)

  datatype Result<+T, +E> = Success(value: T) | Failure(error: E)
}
